=== FILE: README.md ===
# MiniHost licensing and panel core, in Dafny

This project models the licensing core of MiniHost, a small hosting control panel,
and the panel handlers that licensing guards.

- **License server** (`LicenseServer`, license_server.dfy). Two SQLite tables become one
  immutable `State`. The `licenses` table is a map from key to
  `License(status, maxActivations)`. The `activations` table is a set of
  `(licenseKey, machineId)` pairs; it is a set because that pair is UNIQUE.
  `issue`, `revoke` and `validate` are pure transitions from a state and a request to
  a reply and a new state. `validate` decides in this order: unknown key, revoked key,
  insert-or-ignore of the activation, then the key's count against its ceiling.
- **Panel client** (`LicenseClient`, license_client.dfy). It covers the machine id
  (`f"{hostname}:{ip}".strip()`), the validate endpoint and request, and how an
  abstract HTTP outcome becomes a `(valid, message)` verdict.
- **Panel** (`Panel`, panel.dfy). It covers the choice between a stored setting and an
  environment variable, the license state and its 402 gate, and `activate_license`.
  It also covers the five guarded handlers `create_website`, `enable_ssl`,
  `create_mail_domain`, `create_mailbox` and `reload_nginx`. The panel's tables are
  sequences in id order: ids are AUTOINCREMENT and nothing is deleted. Files written
  under `runtime/` are a map from path to contents.
- **Text builders** (`Mail`, mail.dfy and `LetsEncrypt`, letsencrypt.dfy): the postfix
  domain list, the dovecot user database and the certbot command line.
- **Python string operations** (`Text`, text.dfy): `str.strip()` (with Python's own
  whitespace set), `rstrip("/")`, `sep.join` and `split`. `Wrappers` holds `Option`.
- **SQLite integers** (`Sqlite`, sqlite.dfy): the signed 64-bit range outside which
  Python's `sqlite3` refuses to bind an integer parameter (it raises `OverflowError`).

Everything outside the process is a parameter. In the panel this is `World`: the host
name, the environment, the HTTP post (a function from request to `HttpOutcome`), the
password hash, the nginx reload result, the order in which the database lists the
mail domains, and whether a vhost file can be written for a given domain. In the license server it is the `Config` built from the environment.

Behaviours of the code that are easy to miss:

- The admin token is compared with plain `!=`; timing is not modelled.
- A JSON response body that is not an object makes `data.get` raise after the `try`
  in `validate_license`, so the client raises rather than returning `(False, …)`.
  The model has this as the verdict `Raised`. In the panel it becomes a 500
  (`InternalError`), and the gate still refuses every privileged handler.
- Issue answers with the key as submitted, unstripped, but stores it stripped.
- `max_activations` may be zero or negative; nothing checks that it is positive. A
  value outside SQLite's signed 64-bit range makes the upsert raise, so issue
  answers 500 and stores nothing.
- `create_website` and `enable_ssl` commit their row before writing the vhost file.
  When that write raises (a domain such as `a/b`, whose directory does not exist, a
  domain holding a NUL, or one too long for a file name) the answer is a 500, yet the
  row is kept (or SSL stays on), and `enable_ssl` records no certbot command.
- The vhost file is the sites directory joined with `<domain>.conf`, unchecked. A
  domain holding `../` is written outside the sites directory, and a domain starting
  with `/` replaces the directory altogether.
- Request parsing fills in the defaults of a body: an issue request without
  `max_activations` stores a ceiling of 1, and a website form without a PHP version
  stores "8.2".

## Model

| member | source | states |
|---|---|---|
| LicenseServer.ConfigFrom | license_server/main.py:12 | The admin token is `LICENSE_API_TOKEN` from the environment, or `change-me` when it is unset |
| LicenseServer.Issue | license_server/main.py:63-72 | A wrong token gives Forbidden and changes nothing. A ceiling outside the signed 64-bit range gives a 500 and changes nothing. Otherwise `strip(key)` is stored as active with the given ceiling, or 1 when the body leaves it out, whatever its prior status, other keys and all activations are unchanged, and the reply echoes the unstripped key |
| LicenseServer.Revoke | license_server/main.py:75-81 | A wrong token gives Forbidden and changes nothing. Otherwise an existing `strip(key)` becomes revoked with its ceiling kept, and a missing key is a no-op. No other key and no activation changes, and no key is added |
| LicenseServer.CountActivations | license_server/main.py:101-104 | The per-key `COUNT(*)` is zero exactly when no activation row carries that key |
| LicenseServer.Validate | license_server/main.py:84-108 | An unknown key gives "license not found" and a revoked key gives "license revoked", both with no change. An active key records `(strip(key), strip(machine))` and is valid iff that key's post-insert count is within its ceiling, else "activation limit exceeded". Licenses never change and at most that one row is added |
| LicenseServer.RevalidateKnownMachine | license_server/main.py:97-108 | For a machine already recorded, validate leaves the state unchanged and answers valid iff the key is active and its count is within the ceiling |
| LicenseServer.ValidateIdempotent | license_server/main.py:97-108 | Validating the same request twice gives the same reply and state as validating once |
| LicenseServer.ValidateLeavesOtherKeys | license_server/main.py:101-104 | A validate call never changes the activation rows counted for any other key |
| LicenseServer.CeilingAdmitsFirstMachines | license_server/main.py:97-108 | For distinct new machines against an active key with ceiling n and c rows, the i-th is admitted iff c+i+1 <= n, and otherwise refused as over the limit. All of them end up recorded, denied ones included |
| LicenseServer.FreshIssueThenOneMachineTooMany | license_server/main.py:63-108 | After issuing a key with no rows with a ceiling n that SQLite can store, n distinct machines are admitted, the (n+1)-th gets "activation limit exceeded", and n+1 rows remain |
| LicenseServer.RevokeThenValidate | license_server/main.py:75-95 | After a revoke of an existing key, every validate on that key from any machine answers "license revoked" and records nothing |
| LicenseServer.RevokeIdempotent | license_server/main.py:75-81 | Revoking twice is revoking once |
| LicenseServer.ReissueAdmitsRecordedMachine | license_server/main.py:67-71 | Re-issuing a revoked key re-activates it. A machine recorded before the revoke is then admitted without a new row once the ceiling covers the count and fits in 64 bits |
| LicenseServer.ReissueBelowCountLocksOut | license_server/main.py:67-71 | Re-issuing with a storable ceiling below the current count deletes no rows, so every validate on that key is refused as over the limit |
| LicenseServer.EmptyWellFormed | license_server/main.py:28-50 | The empty tables `init_db` creates satisfy the table invariant below, which makes it the base case of the three preservation lemmas |
| LicenseServer.IssuePreservesWellFormed | license_server/main.py:67-71 | Issue keeps every stored key stripped and every activation under an existing license with a stripped machine id |
| LicenseServer.RevokePreservesWellFormed | license_server/main.py:79-80 | Revoke keeps that table invariant |
| LicenseServer.ValidatePreservesWellFormed | license_server/main.py:97-100 | Validate keeps that table invariant |
| LicenseClient.BuildMachineId | app/services/license.py:14-15 | The machine id is the host name without leading whitespace, `:`, and the address without trailing whitespace. Interior text is kept |
| LicenseClient.MachineIdShape | app/services/license.py:14-15 | `strip(hostname + ":" + ip)` equals that piecewise description |
| LicenseClient.Endpoint | app/services/license.py:19 | The endpoint ends with `/api/v1/validate`. It is preceded by the server URL with exactly its trailing `/` characters removed |
| LicenseClient.EndpointIgnoresTrailingSlashes | app/services/license.py:19 | Appending any number of `/` to the server URL does not change the endpoint |
| LicenseClient.RequestFor | app/services/license.py:19-23 | The request carries the license key and machine id unchanged, with no client-side trimming |
| LicenseClient.Interpret | app/services/license.py:24-33 | Every caught failure gives `(False, "license server error: " + cause)`. The verdict is valid iff the body is an object whose `valid` is boolean `true`. The message defaults to "ok" or "license is not valid". A non-object body raises |
| LicenseClient.ValidateLicense | app/services/license.py:18-33 | It fails closed: valid only if the server's answer to exactly this endpoint, key and machine id had `valid` set to `true`, and invalid on every caught failure |
| Mail.RenderPostfixVirtualDomains | app/services/mail.py:9-10 | No domains give the empty text, and one domain gives exactly that domain |
| Mail.PostfixLinesRoundTrip | app/services/mail.py:9-10 | For at least one domain, none holding a newline, splitting the output on newlines gives back the domains in order |
| Mail.PostfixLength | app/services/mail.py:9-10 | The output is as long as the domains together plus n-1 newlines |
| Mail.RenderDovecotUserdb | app/services/mail.py:13-14 | No users give the empty text, and one user gives exactly `email:hash` |
| Mail.UserdbLinesRoundTrip | app/services/mail.py:13-14 | For at least one user, none of whose fields holds a newline, splitting the output on newlines gives one `email:hash` line per user, in input order |
| LetsEncrypt.BuildCertbotCommand | app/services/letsencrypt.py:10-15 | The command starts with `certbot certonly --nginx `, continues with `-d D -d www.D `, and ends with `--agree-tos -m E --non-interactive`. It is exactly as long as those pieces together |
| LetsEncrypt.CommandIsJoinOfWords | app/services/letsencrypt.py:10-15 | The command is the eleven intended certbot arguments joined by single spaces, with domain and email inserted verbatim |
| LetsEncrypt.CommandWords | app/services/letsencrypt.py:10-15 | When neither domain nor email holds a space, splitting the command on spaces gives back exactly those arguments. Nothing is quoted |
| Panel.Getenv | app/main.py:29 | `os.getenv` gives the variable's value whenever it is set, even to "", and the default only when it is unset |
| Panel.SettingOrEnv | app/main.py:34-35 | A non-empty stored setting wins. A missing or empty one falls back to the environment variable, or to "" |
| Panel.CurrentMachineId | app/main.py:27-30 | The machine id is built from the host name and `PANEL_SERVER_IP`, which defaults to 127.0.0.1 |
| Panel.GetLicenseState | app/main.py:33-52 | Without a URL or key the state is inactive with "Лицензия не настроена". Otherwise `active` and `message` are the validator's verdict for this machine, with URL and key echoed. A raising validator gives no state |
| Panel.NotConfiguredNeverAsksServer | app/main.py:36-42 | Without a URL or key the state is the same whatever the license server would answer, and it is inactive |
| Panel.ActiveOnlyOnServerYes | app/main.py:33-52 | An active state implies that the server answered this panel's own request with `valid` set to `true` |
| Panel.RequireActiveLicense | app/main.py:55-58 | The gate lets the handler through iff the state is active. Otherwise it answers 402 with "Лицензия не активна: " and the message, or 500 when the check raised |
| Panel.ActivateLicense | app/main.py:88-92 | The stripped URL and key are stored under their setting keys. Other settings, the tables and the files are unchanged, and the reply redirects to `/` |
| Panel.ActivateThenConfigured | app/main.py:34-35 | After activation the license check reads the stored values. A value that was blank after stripping falls back to the environment |
| Panel.CreateWebsiteHandler | app/main.py:95-106 | A domain already present raises (UNIQUE) and changes nothing. A new stripped domain is appended with stripped root, stripped PHP version ("8.2" when the form leaves it out) and SSL off, and the row is kept either way. The answer is a redirect when the vhost file for the submitted domain can be written, and a 500 when that write raises |
| Panel.EnableSslHandler | app/main.py:109-123 | An id outside the signed 64-bit range gives a 500 and an unknown id a 404, both with no change. Otherwise only that site's SSL flag turns on. If the vhost for its stored domain can be written, the certbot command for that domain goes to `last_certbot_command.txt` and the answer is a redirect. If that write raises, the answer is a 500, SSL stays on and no file changes |
| Panel.CreateMailDomainHandler | app/main.py:126-137 | A new stripped domain is appended and the postfix file is rewritten from the database's listing of all domains. A duplicate raises and changes nothing |
| Panel.CreateMailDomainRewritesPostfix | app/main.py:126-137 | For distinct stripped domains without newlines, the rewritten postfix file read back line by line is the table's domains, the new one included, in the order the database returns them. Each appears exactly once: the lines are a permutation of the domains and pairwise distinct |
| Panel.MailDomainId | app/main.py:147 | For a domain in the table, the selected id lies in 1..n and its row holds exactly that domain |
| Panel.CreateMailboxHandler | app/main.py:140-154 | The domain is the text after the last `@`, or the whole address without one. An unknown domain gives 400 with no change, and an existing address raises. Otherwise the stripped address, the password hash and that domain's id are appended |
| Panel.ReloadNginxHandler | app/main.py:157-165 | stdout and stderr are always logged. The answer is "nginx reloaded" iff the exit code is 0, and otherwise a 500 carrying stderr |
| Panel.Perform | app/main.py:95-165 | No handler touches the settings. A handler that neither redirects nor answers JSON writes no file, unless it is the nginx reload. A failed mail-domain or mailbox creation leaves the whole state unchanged |
| Panel.Handle | app/main.py:97-159 | Every privileged handler runs the license gate before anything else. A refusal answers with the gate's response and the state unchanged |
| Panel.InactiveLicenseChangesNothing | app/main.py:55-58 | Without an active license no privileged handler changes the database, the settings or a file. The answer is 402 or 500 |
| Panel.ActiveLicenseRunsHandler | app/main.py:55-58 | With an active license the gate is transparent |
| Panel.EmptyDbWellFormed | app/db.py:10-55 | The empty tables `init_db` creates are well formed, which makes them the base case of Panel.HandleKeepsDb |
| Panel.HandleKeepsDb | app/main.py:95-154 | Every guarded handler keeps the tables well formed: site and mail domains stripped and distinct, mailbox addresses distinct, and each mailbox's domain id naming the domain after its last `@` |
| Text.Trim | license_server/main.py:99 | `strip()` gives a text no longer than its input that is empty or begins and ends with a character outside Python's whitespace set; Text.TrimOfPadded adds that only the surrounding whitespace goes |
| Text.TrimTrailing | app/services/license.py:19 | `rstrip("/")` leaves a prefix of the input that does not end in `/`, and everything it cut is `/` |
| Text.AfterLast | app/main.py:143 | `split("@")[-1]` holds no `@` and is a suffix of the address: the whole address when it has no `@`, and otherwise the text right after an `@` |
| Text.Split | app/main.py:143 | `split(c)` gives at least one piece and no piece holds `c`; Text.JoinSplit and Text.SplitJoin make it the inverse of the join |
| Text.Join | app/services/mail.py:10 | `sep.join` of no parts is ""; of n >= 1 parts it is as long as the parts together plus n - 1 separators |
| Text.TrimOfPadded | license_server/main.py:90 | `strip()` removes surrounding whitespace and nothing else: a text with non-space ends comes back unchanged from any padding |
| Text.TrimIdempotent | app/main.py:90-91 | Stripping twice is stripping once |
| Text.JoinSplit | app/services/mail.py:10 | Joining the pieces of a split with the same separator restores the text |
| Text.SplitJoin | app/services/mail.py:10 | Splitting a join of separator-free parts gives back the parts |
| Text.TrimKeepsAfterLast | app/main.py:143-152 | Stripping the address keeps the text after its last `@` when that text has no surrounding whitespace |

## Left out

- Strings are sequences of Unicode scalar values, so a Python `str` holding a lone surrogate (which a JSON `"\ud800"` escape produces) has no counterpart. The source answers such a key or machine id with a 500, when `sqlite3` cannot encode it, or with a 422 from request validation; neither path is modelled.
- HTTP routing, FastAPI, Jinja templates and redirects are left out. A handler's answer is a `Response` value: `SeeOther`, `JsonOk`, `HttpError(status, detail)` or `InternalError` for an uncaught exception.
- `httpx.post` and its `timeout_s` are left out. The post is the parameter `World.post`, which returns an abstract `HttpOutcome`. The float timeout has no effect in the model.
- `socket.gethostname`, `os.getenv`, `sha256` and `subprocess.run` are parameters: `World.hostname`, `World.env`, `World.passwordHash` and `World.nginxReload`.
- SQLite, connections, commits and `created_at` timestamps are left out. Each handler is one atomic transition. A handler that raises inside its `with get_conn()` block leaves its tables unchanged, as the rolled-back transaction does. When the vhost write fails, `create_website` and `enable_ssl` raise after their commit, so their row change stays. Concurrency between requests is not modelled.
- UNIQUE constraint violations (websites.domain, mail_domains.domain, mailboxes.email in app/db.py) are modelled as `InternalError` with no change. The mailbox foreign key needs no model, since the id always comes from an existing row.
- Panel.CreateMailDomainHandler: `SELECT domain FROM mail_domains` has no ORDER BY, so SQL leaves the row order open. The model takes that order from `World.rowOrder`. Panel.CreateMailDomainRewritesPostfix requires it to be a permutation of the domains.
- app/services/nginx.py (`render_vhost`, `write_vhost`) is not part of this model. The vhost file's content and its path are not modelled. The model keeps only whether the write raises, as `World.writesVhost` of the domain: `create_website` passes the domain as submitted, unstripped, and `enable_ssl` passes the stored, stripped one.
- The panel dashboard (`GET /`) and the license server's `/health` endpoint only read, and are left out.
- LicenseClient.Interpret: a `message` field that is present but not a string (null, a number) is not modelled. The message is `Option<string>`.
- The text of an exception (`f"{exc}"`) is the opaque `cause` string of the outcome.
- Timing of the token comparison is not modelled.
- app/db.py is a map in `PanelState.settings`: `set_setting` is a map update and `get_setting` is a lookup. A missing row reads as absent.

=== FILE: letsencrypt.dfy ===
/** The certbot command line the panel records when SSL is enabled for a site. */
module LetsEncrypt {
  import opened Text

  datatype LetsEncryptRequest = LetsEncryptRequest(domain: string, email: string)

  const CommandHead := "certbot certonly --nginx "
  const TermsAndMail := "--agree-tos -m "
  const NonInteractive := " --non-interactive"

  /** The `-d` part naming the domain and its `www.` alias. */
  function DomainFlags(domain: string): string {
    "-d " + domain + " -d www." + domain + " "
  }

  /** `build_certbot_command`: the fixed head, the two `-d` flags, then the terms
      and the contact address, with domain and email inserted verbatim. */
  function BuildCertbotCommand(req: LetsEncryptRequest): (cmd: string)
    ensures |cmd| == |CommandHead| + |DomainFlags(req.domain)| + |TermsAndMail| + |req.email| + |NonInteractive|
    ensures cmd[..|CommandHead|] == CommandHead
    ensures cmd[|CommandHead|..|CommandHead| + |DomainFlags(req.domain)|] == DomainFlags(req.domain)
    ensures cmd[|cmd| - |TermsAndMail + req.email + NonInteractive|..] == TermsAndMail + req.email + NonInteractive
  {
    var flags := DomainFlags(req.domain);
    var tail := TermsAndMail + req.email + NonInteractive;
    var cmd := CommandHead + flags + tail;
    assert cmd[..|CommandHead|] == CommandHead;
    assert cmd[|CommandHead|..|CommandHead| + |flags|] == flags;
    assert cmd[|cmd| - |tail|..] == tail;
    cmd
  }

  /** The words certbot receives when the command is split on spaces. */
  function CertbotWords(req: LetsEncryptRequest): seq<string> {
    ["certbot", "certonly", "--nginx", "-d", req.domain, "-d", "www." + req.domain,
     "--agree-tos", "-m", req.email, "--non-interactive"]
  }

  /** When neither the domain nor the email holds a space, splitting the command on
      spaces gives exactly the intended arguments: nothing is quoted or escaped, so
      a space in either would change the argument list. */
  lemma CommandWords(req: LetsEncryptRequest)
    requires ' ' !in req.domain && ' ' !in req.email
    ensures Split(BuildCertbotCommand(req), ' ') == CertbotWords(req)
  {
    CommandIsJoinOfWords(req);
    WordsHaveNoSpace(req);
    SplitJoin(CertbotWords(req), ' ');
  }

  lemma WordsHaveNoSpace(req: LetsEncryptRequest)
    requires ' ' !in req.domain && ' ' !in req.email
    ensures forall k :: 0 <= k < |CertbotWords(req)| ==> ' ' !in CertbotWords(req)[k]
  {
    var w := CertbotWords(req);
    assert ' ' !in "www." + req.domain by {
      assert forall i :: 0 <= i < |"www." + req.domain| ==>
        ("www." + req.domain)[i] == if i < 4 then "www."[i] else req.domain[i - 4];
    }
  }

  /** Joining two non-empty runs of words is joining each and putting one separator between. */
  lemma {:induction false} JoinAppend(sep: string, xs: seq<string>, ys: seq<string>)
    requires |xs| >= 1 && |ys| >= 1
    ensures Join(sep, xs + ys) == Join(sep, xs) + sep + Join(sep, ys)
    decreases |xs|
  {
    if |xs| == 1 {
      assert xs + ys == [xs[0]] + ys;
      JoinCons(sep, xs[0], ys);
    } else {
      assert xs + ys == [xs[0]] + (xs[1..] + ys);
      JoinCons(sep, xs[0], xs[1..] + ys);
      JoinAppend(sep, xs[1..], ys);
      assert xs == [xs[0]] + xs[1..];
      JoinCons(sep, xs[0], xs[1..]);
    }
  }

  function HeadWords(): seq<string> {
    ["certbot", "certonly", "--nginx"]
  }

  function FlagWords(domain: string): seq<string> {
    ["-d", domain, "-d", "www." + domain]
  }

  function TailWords(email: string): seq<string> {
    ["--agree-tos", "-m", email, "--non-interactive"]
  }

  /** The command is the words joined by single spaces. */
  lemma CommandIsJoinOfWords(req: LetsEncryptRequest)
    ensures Join(" ", CertbotWords(req)) == BuildCertbotCommand(req)
  {
    var d := req.domain;
    var e := req.email;
    JoinOfThreeRuns(req);
    HeadJoined();
    FlagsJoined(d);
    TailJoined(e);
    assert CommandHead + (DomainFlags(d) + (TermsAndMail + e + NonInteractive))
      == CommandHead + DomainFlags(d) + (TermsAndMail + e + NonInteractive);
  }

  /** The words fall into the head, the flags and the tail, joined with one space between. */
  lemma JoinOfThreeRuns(req: LetsEncryptRequest)
    ensures Join(" ", CertbotWords(req))
      == Join(" ", HeadWords()) + " " + (Join(" ", FlagWords(req.domain)) + " " + Join(" ", TailWords(req.email)))
  {
    var d := req.domain;
    var e := req.email;
    assert CertbotWords(req) == HeadWords() + (FlagWords(d) + TailWords(e));
    JoinAppend(" ", FlagWords(d), TailWords(e));
    JoinAppend(" ", HeadWords(), FlagWords(d) + TailWords(e));
  }

  lemma HeadJoined()
    ensures Join(" ", HeadWords()) + " " == CommandHead
  {
    var rest := ["certonly", "--nginx"];
    JoinCons(" ", "certonly", ["--nginx"]);
    assert Join(" ", rest) == "certonly" + " " + "--nginx";
    JoinCons(" ", "certbot", rest);
    assert HeadWords() == ["certbot"] + rest;
    HeadLiteral();
  }

  lemma HeadLiteral()
    ensures "certbot" + " " + ("certonly" + " " + "--nginx") + " " == CommandHead
  {
  }

  lemma FlagsJoined(d: string)
    ensures Join(" ", FlagWords(d)) + " " == DomainFlags(d)
  {
    JoinCons(" ", "-d", [d, "-d", "www." + d]);
    JoinCons(" ", d, ["-d", "www." + d]);
    JoinCons(" ", "-d", ["www." + d]);
  }

  lemma TailJoined(e: string)
    ensures Join(" ", TailWords(e)) == TermsAndMail + e + NonInteractive
  {
    JoinCons(" ", "--agree-tos", ["-m", e, "--non-interactive"]);
    JoinCons(" ", "-m", [e, "--non-interactive"]);
    JoinCons(" ", e, ["--non-interactive"]);
    TailRegroup("--agree-tos" + " ", "-m" + " ", e, " " + "--non-interactive");
    TailLiterals();
  }

  lemma TailLiterals()
    ensures ("--agree-tos" + " ") + ("-m" + " ") == TermsAndMail
    ensures " " + "--non-interactive" == NonInteractive
  {
  }

  lemma TailRegroup(a: string, b: string, e: string, z: string)
    ensures a + (b + (e + z)) == (a + b) + e + z
  {
  }
}

=== FILE: license_client.dfy ===
/** The panel's side of licensing: the machine identity it sends, the request it
    posts to the license server, and how it reads the answer.

    `httpx.post` is not modelled; it is the function parameter `post`, which maps
    the request to an abstract `HttpOutcome`. */
module LicenseClient {
  import opened Text
  import opened Wrappers

  const ValidatePath := "/api/v1/validate"
  const ServerErrorPrefix := "license server error: "
  const DefaultValidMessage := "ok"
  const DefaultInvalidMessage := "license is not valid"

  datatype LicenseConfig = LicenseConfig(serverUrl: string, licenseKey: string, machineId: string)

  /** What `validate_license` posts: the endpoint and the JSON payload's two fields. */
  datatype HttpRequest = HttpRequest(endpoint: string, licenseKey: string, machineId: string)

  /** A JSON value as far as the client looks at it; `JOther` is null, a number, an array or an object. */
  datatype JsonValue = JBool(b: bool) | JString(s: string) | JOther

  /** What can come back from the post. The first three raise inside the `try` and are
      caught; a JSON body that is not an object makes `data.get` raise after it. */
  datatype HttpOutcome =
    | TransportError(cause: string)
    | StatusError(cause: string)
    | DecodeError(cause: string)
    | NonObjectBody
    | ObjectBody(valid: Option<JsonValue>, message: Option<string>)
  {
    predicate Caught() {
      TransportError? || StatusError? || DecodeError?
    }
  }

  /** The `(bool, str)` pair `validate_license` returns, or `Raised` when it raises. */
  datatype Verdict = Answered(valid: bool, message: string) | Raised

  /** `build_machine_id`: `f"{hostname}:{ip}".strip()`. Only the whitespace in front
      of the host name and after the address goes; the rest, the `:` included, stays. */
  function BuildMachineId(hostname: string, ip: string): (id: string)
    ensures id == TrimStart(hostname) + ":" + TrimEnd(ip)
  {
    MachineIdShape(hostname, ip);
    Trim(hostname + ":" + ip)
  }

  lemma MachineIdShape(hostname: string, ip: string)
    ensures Trim(hostname + ":" + ip) == TrimStart(hostname) + ":" + TrimEnd(ip)
  {
    var a, h := LeadingPieces(hostname);
    var p, b := TrailingPieces(ip);
    MachineIdRegroup(a, h, p, b, ":");
    SeparatorKeepsEndsStripped(h, p);
    TrimOfPadded(a, h + ":" + p, b);
  }

  /** The host name is its leading whitespace followed by `lstrip()` of it. */
  lemma LeadingPieces(s: string) returns (a: string, h: string)
    ensures h == TrimStart(s) && s == a + h && AllSpace(a)
    ensures h == [] || !IsSpace(h[0])
  {
    h := TrimStart(s);
    a := s[..|s| - |h|];
    SuffixSplit(s, h);
  }

  /** The address is `rstrip()` of it followed by its trailing whitespace. */
  lemma TrailingPieces(s: string) returns (p: string, b: string)
    ensures p == TrimEnd(s) && s == p + b && AllSpace(b)
    ensures p == [] || !IsSpace(p[|p| - 1])
  {
    p := TrimEnd(s);
    b := s[|p|..];
    PrefixSplit(s, p);
  }

  lemma MachineIdRegroup(a: string, h: string, p: string, b: string, sep: string)
    ensures (a + h) + sep + (p + b) == a + (h + sep + p) + b
  {
  }

  lemma SeparatorKeepsEndsStripped(h: string, p: string)
    requires h == [] || !IsSpace(h[0])
    requires p == [] || !IsSpace(p[|p| - 1])
    ensures Stripped(h + ":" + p)
  {
    var m := h + ":" + p;
    assert m[0] == (if |h| > 0 then h[0] else ':');
    assert m[|m| - 1] == (if |p| > 0 then p[|p| - 1] else ':');
  }

  /** The URL `validate_license` posts to: the server URL without its trailing slashes,
      then the validate path. */
  function Endpoint(serverUrl: string): (e: string)
    ensures |e| >= |ValidatePath| && e[|e| - |ValidatePath|..] == ValidatePath
    ensures var base := e[..|e| - |ValidatePath|];
      && |base| <= |serverUrl| && base == serverUrl[..|base|]
      && (forall i :: |base| <= i < |serverUrl| ==> serverUrl[i] == '/')
      && (base == [] || base[|base| - 1] != '/')
  {
    var base := TrimTrailing(serverUrl, '/');
    assert (base + ValidatePath)[..|base|] == base;
    base + ValidatePath
  }

  /** Slashes appended to the server URL do not change the endpoint. */
  lemma EndpointIgnoresTrailingSlashes(serverUrl: string, n: nat)
    ensures Endpoint(serverUrl + Repeat('/', n)) == Endpoint(serverUrl)
  {
    TrimTrailingIgnoresExtra(serverUrl, '/', n);
  }

  /** The request for a configuration: the key and machine id go out exactly as
      configured (the client trims neither). */
  function RequestFor(cfg: LicenseConfig): (req: HttpRequest)
    ensures req.endpoint == Endpoint(cfg.serverUrl)
    ensures req.licenseKey == cfg.licenseKey && req.machineId == cfg.machineId
  {
    HttpRequest(Endpoint(cfg.serverUrl), cfg.licenseKey, cfg.machineId)
  }

  /** How the answer is read. Only a JSON object whose `valid` is the boolean `true`
      yields a valid verdict; every caught failure is an invalid verdict carrying
      its cause; the message defaults to "ok" or "license is not valid". */
  function Interpret(outcome: HttpOutcome): (v: Verdict)
    ensures v.Raised? <==> outcome.NonObjectBody?
    ensures (v.Answered? && v.valid) <==> (outcome.ObjectBody? && outcome.valid == Some(JBool(true)))
    ensures outcome.Caught() ==> v == Answered(false, ServerErrorPrefix + outcome.cause)
    ensures outcome.ObjectBody? && v.valid ==> v.message == outcome.message.GetOr(DefaultValidMessage)
    ensures outcome.ObjectBody? && !v.valid ==> v.message == outcome.message.GetOr(DefaultInvalidMessage)
  {
    match outcome
    case TransportError(cause) => Answered(false, ServerErrorPrefix + cause)
    case StatusError(cause) => Answered(false, ServerErrorPrefix + cause)
    case DecodeError(cause) => Answered(false, ServerErrorPrefix + cause)
    case NonObjectBody => Raised
    case ObjectBody(valid, message) =>
      if valid == Some(JBool(true)) then Answered(true, message.GetOr(DefaultValidMessage))
      else Answered(false, message.GetOr(DefaultInvalidMessage))
  }

  /** `validate_license`: post the request and read the answer. It fails closed: a
      valid verdict means the server's answer for exactly this key and machine id
      was an object with `valid` set to `true`. */
  function ValidateLicense(cfg: LicenseConfig, post: HttpRequest -> HttpOutcome): (v: Verdict)
    ensures v.Answered? && v.valid ==>
      post(HttpRequest(Endpoint(cfg.serverUrl), cfg.licenseKey, cfg.machineId)).ObjectBody?
      && post(HttpRequest(Endpoint(cfg.serverUrl), cfg.licenseKey, cfg.machineId)).valid == Some(JBool(true))
    ensures post(RequestFor(cfg)).Caught() ==> v.Answered? && !v.valid
  {
    Interpret(post(RequestFor(cfg)))
  }
}

=== FILE: license_server.dfy ===
/** The license server: issue, revoke and validate over its two tables.

    The `licenses` table (primary key `license_key`) becomes a map from key to
    `License`; the `activations` table, whose `(license_key, machine_id)` pair is
    UNIQUE, becomes a set of `Activation` pairs. Each HTTP handler is one atomic
    transition from a state to a reply and a new state. */
module LicenseServer {
  import opened Text
  import opened Wrappers
  import opened Sqlite

  /** The environment variable holding the shared admin secret, and its fallback. */
  const ApiTokenVariable := "LICENSE_API_TOKEN"
  const DefaultApiToken := "change-me"

  /** The ceiling request parsing fills in when an issue body leaves out `max_activations`. */
  const DefaultMaxActivations := 1

  const NotFoundMessage := "license not found"
  const RevokedMessage := "license revoked"
  const LimitExceededMessage := "activation limit exceeded"
  const ActiveMessage := "license active"

  datatype Config = Config(apiToken: string)

  datatype Status = Active | Revoked

  datatype License = License(status: Status, maxActivations: int)

  datatype Activation = Activation(licenseKey: string, machineId: string)

  datatype State = State(licenses: map<string, License>, activations: set<Activation>)

  /** The body of `/api/v1/issue`; `/api/v1/revoke` takes the same body and ignores
      `maxActivations`, which is `None` when the body leaves the field out. */
  datatype AdminRequest = AdminRequest(apiToken: string, licenseKey: string, maxActivations: Option<int>)

  /** The ceiling an issue body asks for, the default filled in when it is left out. */
  function RequestedCeiling(req: AdminRequest): int {
    req.maxActivations.GetOr(DefaultMaxActivations)
  }

  datatype ValidateRequest = ValidateRequest(licenseKey: string, machineId: string)

  /** `Forbidden` is the 403 the admin endpoints raise on a wrong token;
      `InternalError` is the 500 of an exception the handler does not catch. */
  datatype AdminReply = Forbidden | InternalError | IssueOk(licenseKey: string) | RevokeOk

  /** `/api/v1/validate` always answers 200 with this body. */
  datatype ValidateReply = ValidateReply(valid: bool, message: string)

  /** The tables as `init_db` leaves them on a fresh database. */
  const Empty := State(map[], {})

  /** The server's configuration, read once from its environment. */
  function ConfigFrom(env: map<string, string>): (cfg: Config)
    ensures ApiTokenVariable in env ==> cfg.apiToken == env[ApiTokenVariable]
    ensures ApiTokenVariable !in env ==> cfg.apiToken == DefaultApiToken
  {
    Config(if ApiTokenVariable in env then env[ApiTokenVariable] else DefaultApiToken)
  }

  /** The activation rows of license `key` (the rows `COUNT(*)` counts). */
  function Rows(acts: set<Activation>, key: string): set<Activation> {
    set a | a in acts && a.licenseKey == key
  }

  /** The `COUNT(*)` of `key`'s activation rows: zero exactly when no machine is
      recorded under `key`. */
  function CountActivations(st: State, key: string): (n: nat)
    ensures n == 0 <==> forall a :: a in st.activations ==> a.licenseKey != key
  {
    NoRowsIffNoMachine(st.activations, key);
    |Rows(st.activations, key)|
  }

  lemma NoRowsIffNoMachine(acts: set<Activation>, key: string)
    ensures |Rows(acts, key)| == 0 <==> forall a :: a in acts ==> a.licenseKey != key
  {
    if exists a :: a in acts && a.licenseKey == key {
      var a :| a in acts && a.licenseKey == key;
      assert a in Rows(acts, key);
    } else {
      assert Rows(acts, key) == {};
    }
  }

  /** Only `key`'s count can move when a row for `key` is inserted-or-ignored:
      by one for a new machine, not at all for a known one. */
  lemma RecordActivation(acts: set<Activation>, key: string, machine: string)
    ensures Activation(key, machine) !in acts ==>
      |Rows(acts + {Activation(key, machine)}, key)| == |Rows(acts, key)| + 1
    ensures Activation(key, machine) in acts ==> acts + {Activation(key, machine)} == acts
    ensures forall k :: k != key ==> Rows(acts + {Activation(key, machine)}, k) == Rows(acts, k)
  {
    var a := Activation(key, machine);
    assert Rows(acts + {a}, key) == Rows(acts, key) + {a};
  }

  /** `POST /api/v1/issue`: with the right token, upsert `strip(key)` as an active
      license with the requested ceiling, 1 when the body leaves it out (re-issuing
      un-revokes); activations are untouched. A ceiling SQLite cannot bind raises
      before the upsert, so nothing changes. */
  function Issue(cfg: Config, st: State, req: AdminRequest): (out: (AdminReply, State))
    ensures req.apiToken != cfg.apiToken ==> out == (Forbidden, st)
    ensures req.apiToken == cfg.apiToken && !Binds(RequestedCeiling(req)) ==> out == (InternalError, st)
    ensures req.apiToken == cfg.apiToken && Binds(RequestedCeiling(req)) ==>
      && out.0 == IssueOk(req.licenseKey)
      && out.1.licenses.Keys == st.licenses.Keys + {Trim(req.licenseKey)}
      && out.1.licenses[Trim(req.licenseKey)] == License(Active, RequestedCeiling(req))
      && (forall k :: k in st.licenses && k != Trim(req.licenseKey) ==> out.1.licenses[k] == st.licenses[k])
      && out.1.activations == st.activations
    ensures req.apiToken == cfg.apiToken && req.maxActivations.None? ==>
      && out.0 == IssueOk(req.licenseKey)
      && out.1.licenses[Trim(req.licenseKey)] == License(Active, DefaultMaxActivations)
    ensures req.apiToken == cfg.apiToken && req.maxActivations.Some? ==>
      (out.0 == InternalError <==> !Binds(req.maxActivations.value))
  {
    var ceiling := RequestedCeiling(req);
    if req.apiToken != cfg.apiToken then (Forbidden, st)
    else if !Binds(ceiling) then (InternalError, st)
    else
      var key := Trim(req.licenseKey);
      (IssueOk(req.licenseKey), st.(licenses := st.licenses[key := License(Active, ceiling)]))
  }

  /** `POST /api/v1/revoke`: with the right token, mark `strip(key)` revoked if it
      exists (keeping its ceiling) and do nothing otherwise; activations are untouched. */
  function Revoke(cfg: Config, st: State, req: AdminRequest): (out: (AdminReply, State))
    ensures req.apiToken != cfg.apiToken ==> out == (Forbidden, st)
    ensures req.apiToken == cfg.apiToken ==>
      && out.0 == RevokeOk
      && out.1.activations == st.activations
      && out.1.licenses.Keys == st.licenses.Keys
      && (forall k :: k in st.licenses && k != Trim(req.licenseKey) ==> out.1.licenses[k] == st.licenses[k])
      && (Trim(req.licenseKey) in st.licenses ==>
            out.1.licenses[Trim(req.licenseKey)]
              == License(Revoked, st.licenses[Trim(req.licenseKey)].maxActivations))
  {
    if req.apiToken != cfg.apiToken then (Forbidden, st)
    else
      var key := Trim(req.licenseKey);
      if key in st.licenses then
        (RevokeOk, st.(licenses := st.licenses[key := st.licenses[key].(status := Revoked)]))
      else (RevokeOk, st)
  }

  /** `POST /api/v1/validate`, decided in order: unknown key, revoked key, then
      record the machine (insert-or-ignore) and compare the key's count with its ceiling. */
  function Validate(st: State, req: ValidateRequest): (out: (ValidateReply, State))
    ensures out.1.licenses == st.licenses
    ensures st.activations <= out.1.activations
    ensures out.1.activations - st.activations <= {Activation(Trim(req.licenseKey), Trim(req.machineId))}
    ensures out.0.valid ==> out.0.message == ActiveMessage
    ensures Trim(req.licenseKey) !in st.licenses ==> out == (ValidateReply(false, NotFoundMessage), st)
    ensures Trim(req.licenseKey) in st.licenses && st.licenses[Trim(req.licenseKey)].status != Active ==>
      out == (ValidateReply(false, RevokedMessage), st)
    ensures Trim(req.licenseKey) in st.licenses && st.licenses[Trim(req.licenseKey)].status == Active ==>
      && out.1.activations == st.activations + {Activation(Trim(req.licenseKey), Trim(req.machineId))}
      && (out.0.valid <==>
            CountActivations(out.1, Trim(req.licenseKey)) <= st.licenses[Trim(req.licenseKey)].maxActivations)
      && (!out.0.valid ==> out.0.message == LimitExceededMessage)
  {
    var key := Trim(req.licenseKey);
    if key !in st.licenses then (ValidateReply(false, NotFoundMessage), st)
    else
      var lic := st.licenses[key];
      if lic.status != Active then (ValidateReply(false, RevokedMessage), st)
      else
        var st' := st.(activations := st.activations + {Activation(key, Trim(req.machineId))});
        if CountActivations(st', key) > lic.maxActivations then
          (ValidateReply(false, LimitExceededMessage), st')
        else (ValidateReply(true, ActiveMessage), st')
  }

  /** A machine already recorded for the key: validating again changes nothing,
      and the answer is whether the license is active with its count within the ceiling. */
  lemma RevalidateKnownMachine(st: State, req: ValidateRequest)
    requires Activation(Trim(req.licenseKey), Trim(req.machineId)) in st.activations
    ensures Validate(st, req).1 == st
    ensures Validate(st, req).0.valid <==>
      && Trim(req.licenseKey) in st.licenses
      && st.licenses[Trim(req.licenseKey)].status == Active
      && CountActivations(st, Trim(req.licenseKey)) <= st.licenses[Trim(req.licenseKey)].maxActivations
  {
    RecordActivation(st.activations, Trim(req.licenseKey), Trim(req.machineId));
  }

  /** Validating twice in a row is validating once: same reply, same state. */
  lemma ValidateIdempotent(st: State, req: ValidateRequest)
    ensures Validate(Validate(st, req).1, req) == Validate(st, req)
  {
    var s1 := Validate(st, req).1;
    var key := Trim(req.licenseKey);
    if key in st.licenses && st.licenses[key].status == Active {
      RecordActivation(s1.activations, key, Trim(req.machineId));
    }
  }

  /** A validate call never changes the count, or the rows, of any other license. */
  lemma ValidateLeavesOtherKeys(st: State, req: ValidateRequest, other: string)
    requires other != Trim(req.licenseKey)
    ensures Rows(Validate(st, req).1.activations, other) == Rows(st.activations, other)
  {
    RecordActivation(st.activations, Trim(req.licenseKey), Trim(req.machineId));
  }

  /** One validate call per machine, in order, for the same license key. */
  function ValidateAll(st: State, key: string, machines: seq<string>): (out: (seq<ValidateReply>, State))
    ensures |out.0| == |machines|
    decreases |machines|
  {
    if |machines| == 0 then ([], st)
    else
      var first := Validate(st, ValidateRequest(key, machines[0]));
      var rest := ValidateAll(first.1, key, machines[1..]);
      ([first.0] + rest.0, rest.1)
  }

  /** Validating a machine not yet recorded for an active license records it, raises
      the key's count by one, and admits it exactly when the new count is within the ceiling. */
  lemma ValidateNewMachine(st: State, key: string, machine: string, n: int)
    requires Trim(key) in st.licenses && st.licenses[Trim(key)] == License(Active, n)
    requires Activation(Trim(key), Trim(machine)) !in st.activations
    ensures Validate(st, ValidateRequest(key, machine)).1
      == st.(activations := st.activations + {Activation(Trim(key), Trim(machine))})
    ensures CountActivations(Validate(st, ValidateRequest(key, machine)).1, Trim(key))
      == CountActivations(st, Trim(key)) + 1
    ensures Validate(st, ValidateRequest(key, machine)).0
      == if CountActivations(st, Trim(key)) + 1 <= n then ValidateReply(true, ActiveMessage)
         else ValidateReply(false, LimitExceededMessage)
  {
    RecordActivation(st.activations, Trim(key), Trim(machine));
  }

  /** The activation ceiling: against an active license with ceiling `n` that already
      counts `c` machines, the i-th new distinct machine (from 0) is admitted exactly
      when `c + i + 1 <= n` and is otherwise told the limit is exceeded; every one of
      them ends up recorded. */
  lemma {:induction false} CeilingAdmitsFirstMachines(st: State, key: string, machines: seq<string>, n: int)
    requires Trim(key) in st.licenses && st.licenses[Trim(key)] == License(Active, n)
    requires forall i :: 0 <= i < |machines| ==> Activation(Trim(key), Trim(machines[i])) !in st.activations
    requires forall i, j :: 0 <= i < j < |machines| ==> Trim(machines[i]) != Trim(machines[j])
    ensures forall i :: 0 <= i < |machines| ==>
      ValidateAll(st, key, machines).0[i]
        == if CountActivations(st, Trim(key)) + i + 1 <= n then ValidateReply(true, ActiveMessage)
           else ValidateReply(false, LimitExceededMessage)
    ensures CountActivations(ValidateAll(st, key, machines).1, Trim(key))
      == CountActivations(st, Trim(key)) + |machines|
    ensures ValidateAll(st, key, machines).1.licenses == st.licenses
    decreases |machines|
  {
    if |machines| > 0 {
      var k := Trim(key);
      var c := CountActivations(st, k);
      var first := Validate(st, ValidateRequest(key, machines[0]));
      var rest := machines[1..];
      ValidateNewMachine(st, key, machines[0], n);
      FreshMachinesStayFresh(st.activations, k, machines, first.1.activations);
      CeilingAdmitsFirstMachines(first.1, key, rest, n);
      var tail := ValidateAll(first.1, key, rest);
      assert ValidateAll(st, key, machines) == ([first.0] + tail.0, tail.1);
      forall i | 0 <= i < |machines|
        ensures ValidateAll(st, key, machines).0[i]
          == if c + i + 1 <= n then ValidateReply(true, ActiveMessage) else ValidateReply(false, LimitExceededMessage)
      {
        if i > 0 {
          assert ValidateAll(st, key, machines).0[i] == tail.0[i - 1];
        }
      }
    }
  }

  /** Recording the first of several distinct machines leaves the others unrecorded. */
  lemma FreshMachinesStayFresh(acts: set<Activation>, k: string, machines: seq<string>, acts': set<Activation>)
    requires |machines| > 0
    requires acts' == acts + {Activation(k, Trim(machines[0]))}
    requires forall i :: 0 <= i < |machines| ==> Activation(k, Trim(machines[i])) !in acts
    requires forall i, j :: 0 <= i < j < |machines| ==> Trim(machines[i]) != Trim(machines[j])
    ensures forall i :: 0 <= i < |machines| - 1 ==> Activation(k, Trim(machines[1..][i])) !in acts'
  {
    forall i | 0 <= i < |machines| - 1 ensures Activation(k, Trim(machines[1..][i])) !in acts' {
      assert machines[1..][i] == machines[i + 1];
      assert Trim(machines[0]) != Trim(machines[i + 1]);
    }
  }

  /** Issuing a key that has no activations yet and then validating it from `n + 1`
      distinct machines: the first `n` are admitted, the last is told the limit is
      exceeded, and all `n + 1` machines stay recorded. */
  lemma FreshIssueThenOneMachineTooMany(cfg: Config, st: State, key: string, n: nat, machines: seq<string>)
    requires n <= MaxInteger
    requires CountActivations(st, Trim(key)) == 0
    requires |machines| == n + 1
    requires forall i, j :: 0 <= i < j < |machines| ==> Trim(machines[i]) != Trim(machines[j])
    ensures forall i :: 0 <= i < n ==>
      ValidateAll(Issue(cfg, st, AdminRequest(cfg.apiToken, key, Some(n))).1, key, machines).0[i]
        == ValidateReply(true, ActiveMessage)
    ensures ValidateAll(Issue(cfg, st, AdminRequest(cfg.apiToken, key, Some(n))).1, key, machines).0[n]
      == ValidateReply(false, LimitExceededMessage)
    ensures CountActivations(ValidateAll(Issue(cfg, st, AdminRequest(cfg.apiToken, key, Some(n))).1, key, machines).1, Trim(key))
      == n + 1
  {
    var issued := IssueKeepsNoRows(cfg, st, key, n, machines);
    CeilingAdmitsFirstMachines(issued, key, machines, n);
    var replies := ValidateAll(issued, key, machines).0;
    assert forall i :: 0 <= i < n ==> replies[i] == ValidateReply(true, ActiveMessage);
    assert replies[n] == ValidateReply(false, LimitExceededMessage);
  }

  /** A fresh issue leaves the key active with ceiling `n` and still without rows. */
  lemma IssueKeepsNoRows(cfg: Config, st: State, key: string, n: int, machines: seq<string>) returns (issued: State)
    requires Binds(n)
    ensures issued == Issue(cfg, st, AdminRequest(cfg.apiToken, key, Some(n))).1
    ensures Trim(key) in issued.licenses
    requires CountActivations(st, Trim(key)) == 0
    ensures Issue(cfg, st, AdminRequest(cfg.apiToken, key, Some(n))).1.licenses[Trim(key)] == License(Active, n)
    ensures CountActivations(Issue(cfg, st, AdminRequest(cfg.apiToken, key, Some(n))).1, Trim(key)) == 0
    ensures forall i :: 0 <= i < |machines| ==>
      Activation(Trim(key), Trim(machines[i])) !in Issue(cfg, st, AdminRequest(cfg.apiToken, key, Some(n))).1.activations
  {
    issued := Issue(cfg, st, AdminRequest(cfg.apiToken, key, Some(n))).1;
    var k := Trim(key);
    assert Rows(st.activations, k) == {};
    forall i | 0 <= i < |machines| ensures Activation(k, Trim(machines[i])) !in st.activations {
      assert Activation(k, Trim(machines[i])) !in Rows(st.activations, k);
    }
  }

  /** After a successful revoke of an existing key, every validate on that key, from
      a known or a new machine, is refused as revoked and records nothing. */
  lemma RevokeThenValidate(cfg: Config, st: State, key: string, machine: string)
    requires Trim(key) in st.licenses
    ensures var revoked := Revoke(cfg, st, AdminRequest(cfg.apiToken, key, None)).1;
      Validate(revoked, ValidateRequest(key, machine)) == (ValidateReply(false, RevokedMessage), revoked)
  {
  }

  /** Revoking is idempotent. */
  lemma RevokeIdempotent(cfg: Config, st: State, req: AdminRequest)
    ensures Revoke(cfg, Revoke(cfg, st, req).1, req) == Revoke(cfg, st, req)
  {
    var key := Trim(req.licenseKey);
    if req.apiToken == cfg.apiToken && key in st.licenses {
      var once := Revoke(cfg, st, req).1;
      assert once.licenses[key := once.licenses[key].(status := Revoked)] == once.licenses;
    }
  }

  /** Re-issuing a revoked key makes it active again with the new ceiling; a machine
      recorded before the revocation is then admitted, without a new row, as soon as
      the ceiling covers the key's count. */
  lemma ReissueAdmitsRecordedMachine(cfg: Config, st: State, key: string, machine: string, n: int)
    requires Trim(key) in st.licenses && st.licenses[Trim(key)].status == Revoked
    requires Activation(Trim(key), Trim(machine)) in st.activations
    requires CountActivations(st, Trim(key)) <= n <= MaxInteger
    ensures var reissued := Issue(cfg, st, AdminRequest(cfg.apiToken, key, Some(n))).1;
      && reissued.licenses[Trim(key)] == License(Active, n)
      && Validate(reissued, ValidateRequest(key, machine)) == (ValidateReply(true, ActiveMessage), reissued)
  {
    var reissued := Issue(cfg, st, AdminRequest(cfg.apiToken, key, Some(n))).1;
    RevalidateKnownMachine(reissued, ValidateRequest(key, machine));
  }

  /** Re-issuing a key with a ceiling below its current count prunes nothing: from
      then on every machine, already recorded or new, is refused as over the limit. */
  lemma ReissueBelowCountLocksOut(cfg: Config, st: State, key: string, machine: string, n: int)
    requires Binds(n)
    requires CountActivations(st, Trim(key)) > n
    ensures var reissued := Issue(cfg, st, AdminRequest(cfg.apiToken, key, Some(n))).1;
      && reissued.activations == st.activations
      && Validate(reissued, ValidateRequest(key, machine)).0 == ValidateReply(false, LimitExceededMessage)
  {
    var reissued := Issue(cfg, st, AdminRequest(cfg.apiToken, key, Some(n))).1;
    RecordActivation(reissued.activations, Trim(key), Trim(machine));
  }

  /** What the server's own writes keep true of its tables: keys are stored stripped,
      and every activation row is a stripped machine id under an existing license
      (licenses are never deleted). */
  ghost predicate WellFormed(st: State) {
    && (forall k :: k in st.licenses ==> Stripped(k))
    && (forall a :: a in st.activations ==> a.licenseKey in st.licenses && Stripped(a.machineId))
  }

  /** A fresh database is well formed, so every state the handlers reach from it is. */
  lemma EmptyWellFormed()
    ensures WellFormed(Empty)
  {
  }

  /** Issuing keeps the tables well formed. */
  lemma IssuePreservesWellFormed(cfg: Config, st: State, req: AdminRequest)
    requires WellFormed(st)
    ensures WellFormed(Issue(cfg, st, req).1)
  {
  }

  /** Revoking keeps the tables well formed. */
  lemma RevokePreservesWellFormed(cfg: Config, st: State, req: AdminRequest)
    requires WellFormed(st)
    ensures WellFormed(Revoke(cfg, st, req).1)
  {
  }

  /** Validating keeps the tables well formed. */
  lemma ValidatePreservesWellFormed(st: State, req: ValidateRequest)
    requires WellFormed(st)
    ensures WellFormed(Validate(st, req).1)
  {
    var key := Trim(req.licenseKey);
    if key in st.licenses && st.licenses[key].status == Active {
      var added := Activation(key, Trim(req.machineId));
      assert Validate(st, req).1 == st.(activations := st.activations + {added});
      AddRowKeepsWellFormed(st, added);
    }
  }

  lemma AddRowKeepsWellFormed(st: State, added: Activation)
    requires WellFormed(st)
    requires added.licenseKey in st.licenses && Stripped(added.machineId)
    ensures WellFormed(st.(activations := st.activations + {added}))
  {
  }

}

=== FILE: mail.dfy ===
/** The postfix and dovecot text the panel generates: one entry per line. */
module Mail {
  import opened Text

  datatype MailDomainConfig = MailDomainConfig(domain: string)

  /** A user of the dovecot user database: an address and its password hash. */
  datatype MailUser = MailUser(email: string, passwordHash: string)

  function DomainNames(domains: seq<MailDomainConfig>): (names: seq<string>)
    ensures |names| == |domains|
    ensures forall i :: 0 <= i < |domains| ==> names[i] == domains[i].domain
  {
    seq(|domains|, i requires 0 <= i < |domains| => domains[i].domain)
  }

  predicate NoNewline(s: string) {
    '\n' !in s
  }

  /** `render_postfix_virtual_domains`: the domains, newline-joined. No domains give the
      empty text and one domain gives exactly that domain. */
  function RenderPostfixVirtualDomains(domains: seq<MailDomainConfig>): (out: string)
    ensures |domains| == 0 ==> out == ""
    ensures |domains| == 1 ==> out == domains[0].domain
  {
    Join("\n", DomainNames(domains))
  }

  /** The postfix text is as long as the domains plus one newline between each two. */
  lemma PostfixLength(domains: seq<MailDomainConfig>)
    requires |domains| >= 1
    ensures |RenderPostfixVirtualDomains(domains)| == TotalLength(DomainNames(domains)) + |domains| - 1
  {
  }

  /** Reading the postfix file back line by line gives the domains, in order, as long
      as there is at least one and none contains a newline. */
  lemma PostfixLinesRoundTrip(domains: seq<MailDomainConfig>)
    requires |domains| >= 1
    requires forall i :: 0 <= i < |domains| ==> NoNewline(domains[i].domain)
    ensures Split(RenderPostfixVirtualDomains(domains), '\n') == DomainNames(domains)
  {
    SplitJoin(DomainNames(domains), '\n');
  }

  /** One `email:hash` line of the user database. */
  function UserdbLine(user: MailUser): string {
    user.email + ":" + user.passwordHash
  }

  function UserdbLines(users: seq<MailUser>): (lines: seq<string>)
    ensures |lines| == |users|
    ensures forall i :: 0 <= i < |users| ==> lines[i] == UserdbLine(users[i])
  {
    seq(|users|, i requires 0 <= i < |users| => UserdbLine(users[i]))
  }

  /** `render_dovecot_userdb`: the `email:hash` lines, newline-joined. */
  function RenderDovecotUserdb(users: seq<MailUser>): (out: string)
    ensures |users| == 0 ==> out == ""
    ensures |users| == 1 ==> out == users[0].email + ":" + users[0].passwordHash
  {
    Join("\n", UserdbLines(users))
  }

  /** Reading the user database back line by line gives one `email:hash` line per
      user, in input order, as long as there is a user and no line contains a newline. */
  lemma UserdbLinesRoundTrip(users: seq<MailUser>)
    requires |users| >= 1
    requires forall i :: 0 <= i < |users| ==> NoNewline(users[i].email) && NoNewline(users[i].passwordHash)
    ensures |Split(RenderDovecotUserdb(users), '\n')| == |users|
    ensures forall i :: 0 <= i < |users| ==>
      Split(RenderDovecotUserdb(users), '\n')[i] == users[i].email + ":" + users[i].passwordHash
  {
    var lines := UserdbLines(users);
    forall i | 0 <= i < |users| ensures NoNewline(lines[i]) {
      assert lines[i] == users[i].email + ":" + users[i].passwordHash;
      assert NoNewline(users[i].email) && NoNewline(users[i].passwordHash);
    }
    SplitJoin(lines, '\n');
  }
}

=== FILE: panel.dfy ===
/** The control panel's license gate and the handlers it guards.

    The panel's settings table is a map; its websites, mail domains and mailboxes
    tables are sequences in insertion order (ids are AUTOINCREMENT and nothing is
    deleted, so a row's id is its position plus one). Everything the handlers read
    from outside the database (host name, environment, the license server, the
    password hash, the nginx reload, the order of an unordered SELECT, whether a vhost
    file can be written) comes in through `World`. */
module Panel {
  import opened Text
  import opened Wrappers
  import opened LicenseClient
  import opened Mail
  import opened LetsEncrypt
  import opened Sqlite

  const ServerUrlSetting := "license_server_url"
  const LicenseKeySetting := "license_key"
  const ServerUrlVariable := "LICENSE_SERVER_URL"
  const LicenseKeyVariable := "LICENSE_KEY"
  const ServerIpVariable := "PANEL_SERVER_IP"
  const DefaultServerIp := "127.0.0.1"

  const NotConfiguredMessage := "Лицензия не настроена"
  const NotActivePrefix := "Лицензия не активна: "
  const WebsiteNotFoundDetail := "Website not found"
  const DomainMissingDetail := "Domain missing. Create mail domain first"
  const ReloadedMessage := "nginx reloaded"

  /** Files the handlers write under the runtime directory. */
  const CertbotCommandFile := "last_certbot_command.txt"
  const VirtualDomainsFile := "mail/virtual_domains"
  const ReloadLogFile := "nginx_reload.log"

  /** What `nginx -t && systemctl reload nginx` reports. */
  datatype ReloadResult = ReloadResult(returnCode: int, stdout: string, stderr: string)

  datatype World = World(
    hostname: string,
    env: map<string, string>,
    post: HttpRequest -> HttpOutcome,
    passwordHash: string -> string,
    nginxReload: ReloadResult,
    rowOrder: seq<string> -> seq<string>,
    writesVhost: string -> bool)

  datatype Website = Website(domain: string, rootPath: string, phpVersion: string, sslEnabled: bool)

  datatype Mailbox = Mailbox(email: string, passwordHash: string, domainId: int)

  datatype Db = Db(websites: seq<Website>, mailDomains: seq<string>, mailboxes: seq<Mailbox>)

  datatype PanelState = PanelState(settings: map<string, string>, db: Db, files: map<string, string>)

  /** `InternalError` is an exception the handler does not catch (a 500). */
  datatype Response =
    | SeeOther(location: string)
    | JsonOk(message: string)
    | HttpError(status: int, detail: string)
    | InternalError

  datatype LicenseState = LicenseState(active: bool, message: string, serverUrl: string, licenseKey: string)

  datatype Command =
    | CreateWebsite(domain: string, rootPath: string, phpVersion: Option<string>)
    | EnableSsl(websiteId: int, email: string)
    | CreateMailDomain(domain: string)
    | CreateMailbox(email: string, password: string)
    | ReloadNginx

  /** `os.getenv(name, default)`. */
  function Getenv(env: map<string, string>, name: string, default: string): (v: string)
    ensures name in env ==> v == env[name]
    ensures name !in env ==> v == default
  {
    if name in env then env[name] else default
  }

  /** `get_setting(key) or os.getenv(variable, "")`: a missing or empty setting falls back
      to the environment. */
  function SettingOrEnv(settings: map<string, string>, key: string, env: map<string, string>, variable: string): (v: string)
    ensures key in settings && settings[key] != "" ==> v == settings[key]
    ensures (key !in settings || settings[key] == "") ==> v == Getenv(env, variable, "")
  {
    if key in settings && settings[key] != "" then settings[key] else Getenv(env, variable, "")
  }

  function ServerUrl(settings: map<string, string>, env: map<string, string>): string {
    SettingOrEnv(settings, ServerUrlSetting, env, ServerUrlVariable)
  }

  function LicenseKey(settings: map<string, string>, env: map<string, string>): string {
    SettingOrEnv(settings, LicenseKeySetting, env, LicenseKeyVariable)
  }

  /** `current_machine_id`: the host name and the configured address (default 127.0.0.1). */
  function CurrentMachineId(world: World): (id: string)
    ensures id == TrimStart(world.hostname) + ":" + TrimEnd(Getenv(world.env, ServerIpVariable, DefaultServerIp))
  {
    BuildMachineId(world.hostname, Getenv(world.env, ServerIpVariable, DefaultServerIp))
  }

  /** `get_license_state`; `None` when `validate_license` raises. Without a server URL or
      a key it answers "not configured" without contacting the server; otherwise it
      reports the validator's verdict for this machine, echoing the URL and key. */
  function GetLicenseState(settings: map<string, string>, world: World): (r: Option<LicenseState>)
    ensures var url := ServerUrl(settings, world.env); var key := LicenseKey(settings, world.env);
      && (url == "" || key == "" ==> r == Some(LicenseState(false, NotConfiguredMessage, url, key)))
      && (url != "" && key != "" ==>
            var v := ValidateLicense(LicenseConfig(url, key, CurrentMachineId(world)), world.post);
            && (v.Raised? ==> r == None)
            && (v.Answered? ==> r == Some(LicenseState(v.valid, v.message, url, key))))
  {
    var url := ServerUrl(settings, world.env);
    var key := LicenseKey(settings, world.env);
    if url == "" || key == "" then Some(LicenseState(false, NotConfiguredMessage, url, key))
    else
      match ValidateLicense(LicenseConfig(url, key, CurrentMachineId(world)), world.post)
      case Raised => None
      case Answered(valid, message) => Some(LicenseState(valid, message, url, key))
  }

  /** Without a server URL or a key, the license server is never asked: the state does
      not depend on what the server would answer. */
  lemma NotConfiguredNeverAsksServer(settings: map<string, string>, world: World, otherPost: HttpRequest -> HttpOutcome)
    requires ServerUrl(settings, world.env) == "" || LicenseKey(settings, world.env) == ""
    ensures GetLicenseState(settings, world) == GetLicenseState(settings, world.(post := otherPost))
    ensures GetLicenseState(settings, world).Some? && !GetLicenseState(settings, world).value.active
  {
  }

  /** The panel fails closed: it only ever considers the license active when the server
      answered this panel's own request (configured URL and key, current machine id)
      with a JSON object whose `valid` is `true`. */
  lemma ActiveOnlyOnServerYes(settings: map<string, string>, world: World)
    requires GetLicenseState(settings, world).Some? && GetLicenseState(settings, world).value.active
    ensures var req := HttpRequest(Endpoint(ServerUrl(settings, world.env)), LicenseKey(settings, world.env),
                                   CurrentMachineId(world));
      world.post(req).ObjectBody? && world.post(req).valid == Some(JBool(true))
  {
    var url := ServerUrl(settings, world.env);
    var key := LicenseKey(settings, world.env);
    var v := ValidateLicense(LicenseConfig(url, key, CurrentMachineId(world)), world.post);
    assert url != "" && key != "";
    assert v.Answered? && v.valid;
  }

  /** `require_active_license`: `None` lets the handler go on; otherwise the response it
      ends with, a 402 naming the reason, or a 500 when the license check raised. */
  function RequireActiveLicense(settings: map<string, string>, world: World): (refusal: Option<Response>)
    ensures refusal == None <==>
      GetLicenseState(settings, world).Some? && GetLicenseState(settings, world).value.active
    ensures GetLicenseState(settings, world).None? ==> refusal == Some(InternalError)
    ensures GetLicenseState(settings, world).Some? && !GetLicenseState(settings, world).value.active ==>
      refusal == Some(HttpError(402, NotActivePrefix + GetLicenseState(settings, world).value.message))
  {
    match GetLicenseState(settings, world)
    case None => Some(InternalError)
    case Some(state) => if state.active then None else Some(HttpError(402, NotActivePrefix + state.message))
  }

  /** `POST /license/activate` (not guarded): store the stripped URL and key. */
  function ActivateLicense(p: PanelState, serverUrl: string, licenseKey: string): (out: (Response, PanelState))
    ensures out.0 == SeeOther("/")
    ensures out.1.db == p.db && out.1.files == p.files
    ensures out.1.settings.Keys == p.settings.Keys + {ServerUrlSetting, LicenseKeySetting}
    ensures out.1.settings[ServerUrlSetting] == Trim(serverUrl)
    ensures out.1.settings[LicenseKeySetting] == Trim(licenseKey)
    ensures forall k :: k in p.settings && k != ServerUrlSetting && k != LicenseKeySetting ==>
      out.1.settings[k] == p.settings[k]
  {
    (SeeOther("/"), p.(settings := p.settings[ServerUrlSetting := Trim(serverUrl)][LicenseKeySetting := Trim(licenseKey)]))
  }

  /** After activation the license check uses the stored values, unless a value was
      blank after stripping, in which case it falls back to the environment. */
  lemma ActivateThenConfigured(p: PanelState, serverUrl: string, licenseKey: string, env: map<string, string>)
    ensures var s := ActivateLicense(p, serverUrl, licenseKey).1.settings;
      && ServerUrl(s, env) == (if Trim(serverUrl) != "" then Trim(serverUrl) else Getenv(env, ServerUrlVariable, ""))
      && LicenseKey(s, env) == (if Trim(licenseKey) != "" then Trim(licenseKey) else Getenv(env, LicenseKeyVariable, ""))
  {
  }

  /** The `mail_domains` row a domain name selects, as its id. */
  function MailDomainId(db: Db, domain: string): (id: int)
    requires domain in db.mailDomains
    ensures 1 <= id <= |db.mailDomains| && db.mailDomains[id - 1] == domain
  {
    IndexOf(db.mailDomains, domain) + 1
  }

  predicate HasWebsite(db: Db, domain: string) {
    exists i :: 0 <= i < |db.websites| && db.websites[i].domain == domain
  }

  predicate HasMailbox(db: Db, email: string) {
    exists i :: 0 <= i < |db.mailboxes| && db.mailboxes[i].email == email
  }

  function MailDomainConfigs(domains: seq<string>): (configs: seq<MailDomainConfig>)
    ensures DomainNames(configs) == domains
  {
    var configs := seq(|domains|, i requires 0 <= i < |domains| => MailDomainConfig(domains[i]));
    assert DomainNames(configs) == domains;
    configs
  }

  /** The PHP version `create_website` stores when the form leaves the field out. */
  const DefaultPhpVersion := "8.2"

  /** `create_website`: insert the stripped domain, root and PHP version (8.2 when the
      form leaves it out) with SSL off and commit, then write the site's vhost file,
      named after the domain as submitted.
      The domain column is UNIQUE, so a domain already present raises and changes
      nothing. A vhost write that raises comes after the commit: the row stays and
      the answer is a 500. */
  function CreateWebsiteHandler(p: PanelState, world: World, domain: string, rootPath: string, phpVersion: Option<string>): (out: (Response, PanelState))
    ensures out.1.settings == p.settings && out.1.files == p.files
    ensures HasWebsite(p.db, Trim(domain)) ==> out == (InternalError, p)
    ensures !HasWebsite(p.db, Trim(domain)) ==>
      && out.1.db == p.db.(websites := p.db.websites + [Website(Trim(domain), Trim(rootPath), Trim(phpVersion.GetOr(DefaultPhpVersion)), false)])
      && out.0 == (if world.writesVhost(domain) then SeeOther("/") else InternalError)
    ensures !HasWebsite(p.db, Trim(domain)) && phpVersion.None? ==>
      out.1.db.websites[|p.db.websites|].phpVersion == DefaultPhpVersion
  {
    var d := Trim(domain);
    var php := Trim(phpVersion.GetOr(DefaultPhpVersion));
    DefaultPhpVersionStripped();
    if HasWebsite(p.db, d) then (InternalError, p)
    else
      var inserted := p.(db := p.db.(websites := p.db.websites + [Website(d, Trim(rootPath), php, false)]));
      if world.writesVhost(domain) then (SeeOther("/"), inserted) else (InternalError, inserted)
  }

  lemma DefaultPhpVersionStripped()
    ensures Trim(DefaultPhpVersion) == DefaultPhpVersion
  {
    TrimStartKeeps(DefaultPhpVersion);
    TrimEndKeeps(DefaultPhpVersion);
    TrimIsBothEnds(DefaultPhpVersion);
  }

  /** `enable_ssl`: for an existing site, switch SSL on and commit, then rewrite its
      vhost and record the certbot command for the site's stored domain and the
      submitted email. An unknown id is a 404; an id SQLite cannot bind raises. A vhost
      write that raises comes after the commit: SSL stays on, no command is recorded,
      and the answer is a 500. */
  function EnableSslHandler(p: PanelState, world: World, websiteId: int, email: string): (out: (Response, PanelState))
    ensures out.1.settings == p.settings && out.1.db.mailDomains == p.db.mailDomains
    ensures out.1.db.mailboxes == p.db.mailboxes
    ensures !Binds(websiteId) ==> out == (InternalError, p)
    ensures Binds(websiteId) && !(1 <= websiteId <= |p.db.websites|) ==> out == (HttpError(404, WebsiteNotFoundDetail), p)
    ensures Binds(websiteId) && 1 <= websiteId <= |p.db.websites| ==>
      && |out.1.db.websites| == |p.db.websites|
      && out.1.db.websites[websiteId - 1] == p.db.websites[websiteId - 1].(sslEnabled := true)
      && (forall i :: 0 <= i < |p.db.websites| && i != websiteId - 1 ==> out.1.db.websites[i] == p.db.websites[i])
      && (world.writesVhost(p.db.websites[websiteId - 1].domain) ==>
            && out.0 == SeeOther("/")
            && out.1.files == p.files[CertbotCommandFile :=
                 BuildCertbotCommand(LetsEncryptRequest(p.db.websites[websiteId - 1].domain, email))])
      && (!world.writesVhost(p.db.websites[websiteId - 1].domain) ==> out.0 == InternalError && out.1.files == p.files)
  {
    if !Binds(websiteId) then (InternalError, p)
    else if !(1 <= websiteId <= |p.db.websites|) then (HttpError(404, WebsiteNotFoundDetail), p)
    else
      var row := p.db.websites[websiteId - 1];
      var updated := p.(db := p.db.(websites := p.db.websites[websiteId - 1 := row.(sslEnabled := true)]));
      if !world.writesVhost(row.domain) then (InternalError, updated)
      else
        var command := BuildCertbotCommand(LetsEncryptRequest(row.domain, email));
        (SeeOther("/"), updated.(files := p.files[CertbotCommandFile := command]))
  }

  /** `create_mail_domain`: insert the stripped domain (UNIQUE) and rewrite the postfix
      file from all mail domains, in the order the database lists them. */
  function CreateMailDomainHandler(p: PanelState, world: World, domain: string): (out: (Response, PanelState))
    ensures out.1.settings == p.settings
    ensures out.1.db.websites == p.db.websites && out.1.db.mailboxes == p.db.mailboxes
    ensures out.0 == SeeOther("/") <==> Trim(domain) !in p.db.mailDomains
    ensures out.0 != SeeOther("/") ==> out == (InternalError, p)
    ensures out.0 == SeeOther("/") ==>
      && out.1.db.mailDomains == p.db.mailDomains + [Trim(domain)]
      && out.1.files == p.files[VirtualDomainsFile :=
           RenderPostfixVirtualDomains(MailDomainConfigs(world.rowOrder(p.db.mailDomains + [Trim(domain)])))]
  {
    var d := Trim(domain);
    if d in p.db.mailDomains then (InternalError, p)
    else
      var domains := p.db.mailDomains + [d];
      var listed := world.rowOrder(domains);
      (SeeOther("/"),
       p.(db := p.db.(mailDomains := domains),
          files := p.files[VirtualDomainsFile := RenderPostfixVirtualDomains(MailDomainConfigs(listed))]))
  }

  /** `create_mailbox`: the domain is what follows the last `@` of the submitted
      address; an unknown domain is a 400. Otherwise the stripped address (UNIQUE), the
      password's hash and the domain's id are inserted. */
  function CreateMailboxHandler(p: PanelState, world: World, email: string, password: string): (out: (Response, PanelState))
    ensures out.1.settings == p.settings && out.1.files == p.files
    ensures out.1.db.websites == p.db.websites && out.1.db.mailDomains == p.db.mailDomains
    ensures AfterLast(email, '@') !in p.db.mailDomains ==> out == (HttpError(400, DomainMissingDetail), p)
    ensures AfterLast(email, '@') in p.db.mailDomains && HasMailbox(p.db, Trim(email)) ==> out == (InternalError, p)
    ensures out.0 == SeeOther("/") <==> AfterLast(email, '@') in p.db.mailDomains && !HasMailbox(p.db, Trim(email))
    ensures out.0 == SeeOther("/") ==>
      && |out.1.db.mailboxes| == |p.db.mailboxes| + 1
      && out.1.db.mailboxes[..|p.db.mailboxes|] == p.db.mailboxes
      && out.1.db.mailboxes[|p.db.mailboxes|].email == Trim(email)
      && out.1.db.mailboxes[|p.db.mailboxes|].passwordHash == world.passwordHash(password)
      && var id := out.1.db.mailboxes[|p.db.mailboxes|].domainId;
         1 <= id <= |p.db.mailDomains| && p.db.mailDomains[id - 1] == AfterLast(email, '@')
  {
    var domain := AfterLast(email, '@');
    if domain !in p.db.mailDomains then (HttpError(400, DomainMissingDetail), p)
    else if HasMailbox(p.db, Trim(email)) then (InternalError, p)
    else (SeeOther("/"), InsertMailbox(p, Trim(email), world.passwordHash(password), domain))
  }

  /** The committed insert of a new mailbox under an existing mail domain. */
  function InsertMailbox(p: PanelState, email: string, hash: string, domain: string): (q: PanelState)
    requires domain in p.db.mailDomains
    ensures q.settings == p.settings && q.files == p.files
    ensures q.db.websites == p.db.websites && q.db.mailDomains == p.db.mailDomains
    ensures |q.db.mailboxes| == |p.db.mailboxes| + 1
    ensures q.db.mailboxes[..|p.db.mailboxes|] == p.db.mailboxes
    ensures q.db.mailboxes[|p.db.mailboxes|].email == email
    ensures q.db.mailboxes[|p.db.mailboxes|].passwordHash == hash
    ensures var id := q.db.mailboxes[|p.db.mailboxes|].domainId;
      1 <= id <= |p.db.mailDomains| && p.db.mailDomains[id - 1] == domain
  {
    var box := Mailbox(email, hash, MailDomainId(p.db, domain));
    AppendKeepsPrefix(p.db.mailboxes, box);
    p.(db := p.db.(mailboxes := p.db.mailboxes + [box]))
  }

  lemma AppendKeepsPrefix<T>(s: seq<T>, x: T)
    ensures |s + [x]| == |s| + 1 && (s + [x])[..|s|] == s && (s + [x])[|s|] == x
  {
    assert (s + [x])[..|s|] == s;
  }

  /** `reload_nginx`: log both outputs; a non-zero exit is a 500 carrying stderr. */
  function ReloadNginxHandler(p: PanelState, world: World): (out: (Response, PanelState))
    ensures out.1 == p.(files := p.files[ReloadLogFile := world.nginxReload.stdout + "\n" + world.nginxReload.stderr])
    ensures world.nginxReload.returnCode == 0 <==> out.0 == JsonOk(ReloadedMessage)
    ensures world.nginxReload.returnCode != 0 ==> out.0 == HttpError(500, world.nginxReload.stderr)
  {
    var result := world.nginxReload;
    var logged := p.(files := p.files[ReloadLogFile := result.stdout + "\n" + result.stderr]);
    if result.returnCode != 0 then (HttpError(500, result.stderr), logged)
    else (JsonOk(ReloadedMessage), logged)
  }

  /** What a privileged handler does once the license gate has let it through. No
      handler touches the settings; a failure writes no file except the nginx reload
      log; a failing mail handler changes nothing at all (the website handlers can fail
      after their commit). */
  function Perform(p: PanelState, world: World, cmd: Command): (out: (Response, PanelState))
    ensures out.1.settings == p.settings
    ensures !out.0.SeeOther? && !out.0.JsonOk? && !cmd.ReloadNginx? ==> out.1.files == p.files
    ensures !out.0.SeeOther? && (cmd.CreateMailDomain? || cmd.CreateMailbox?) ==> out.1 == p
  {
    match cmd
    case CreateWebsite(domain, rootPath, phpVersion) => CreateWebsiteHandler(p, world, domain, rootPath, phpVersion)
    case EnableSsl(websiteId, email) => EnableSslHandler(p, world, websiteId, email)
    case CreateMailDomain(domain) => CreateMailDomainHandler(p, world, domain)
    case CreateMailbox(email, password) => CreateMailboxHandler(p, world, email, password)
    case ReloadNginx => ReloadNginxHandler(p, world)
  }

  /** A privileged handler: the license gate first, then the work. */
  function Handle(p: PanelState, world: World, cmd: Command): (out: (Response, PanelState))
    ensures RequireActiveLicense(p.settings, world).Some? ==>
      out == (RequireActiveLicense(p.settings, world).value, p)
    ensures RequireActiveLicense(p.settings, world).None? ==> out == Perform(p, world, cmd)
  {
    match RequireActiveLicense(p.settings, world)
    case Some(refusal) => (refusal, p)
    case None => Perform(p, world, cmd)
  }

  /** Without an active license no privileged handler changes anything: not the
      database, not the settings, not a file; the answer is a 402 or a 500. */
  lemma InactiveLicenseChangesNothing(p: PanelState, world: World, cmd: Command)
    requires GetLicenseState(p.settings, world).None? || !GetLicenseState(p.settings, world).value.active
    ensures Handle(p, world, cmd).1 == p
    ensures Handle(p, world, cmd).0 == InternalError || Handle(p, world, cmd).0.HttpError?
    ensures Handle(p, world, cmd).0.HttpError? ==> Handle(p, world, cmd).0.status == 402
  {
  }

  /** With an active license the gate is transparent: the handler runs as if unguarded. */
  lemma ActiveLicenseRunsHandler(p: PanelState, world: World, cmd: Command)
    requires GetLicenseState(p.settings, world).Some? && GetLicenseState(p.settings, world).value.active
    ensures Handle(p, world, cmd) == Perform(p, world, cmd)
  {
  }

  /** The invariants of the websites table: stripped, distinct domains. */
  ghost predicate WebsitesWellFormed(websites: seq<Website>) {
    && (forall i :: 0 <= i < |websites| ==> Stripped(websites[i].domain))
    && (forall i, j :: 0 <= i < j < |websites| ==> websites[i].domain != websites[j].domain)
  }

  /** The invariants of the mail domains table: stripped, distinct names. */
  ghost predicate MailDomainsWellFormed(domains: seq<string>) {
    && (forall i :: 0 <= i < |domains| ==> Stripped(domains[i]))
    && (forall i, j :: 0 <= i < j < |domains| ==> domains[i] != domains[j])
  }

  /** The invariants of the mailboxes table: distinct addresses, and each mailbox's
      domain id selects the mail domain named after the last `@` of its address. */
  ghost predicate MailboxesWellFormed(mailboxes: seq<Mailbox>, domains: seq<string>) {
    && (forall i, j :: 0 <= i < j < |mailboxes| ==> mailboxes[i].email != mailboxes[j].email)
    && (forall i :: 0 <= i < |mailboxes| ==>
          1 <= mailboxes[i].domainId <= |domains|
          && domains[mailboxes[i].domainId - 1] == AfterLast(mailboxes[i].email, '@'))
  }

  /** What the panel's own writes keep true of its tables. */
  ghost predicate DbWellFormed(db: Db) {
    && WebsitesWellFormed(db.websites)
    && MailDomainsWellFormed(db.mailDomains)
    && MailboxesWellFormed(db.mailboxes, db.mailDomains)
  }

  /** The tables as `init_db` leaves them on a fresh database are well formed, so every
      database the guarded handlers reach from it is. */
  lemma EmptyDbWellFormed()
    ensures DbWellFormed(Db([], [], []))
  {
  }

  lemma CreateWebsiteKeepsDb(p: PanelState, world: World, domain: string, rootPath: string, phpVersion: Option<string>)
    requires DbWellFormed(p.db)
    ensures DbWellFormed(CreateWebsiteHandler(p, world, domain, rootPath, phpVersion).1.db)
  {
    var out := CreateWebsiteHandler(p, world, domain, rootPath, phpVersion);
    if !HasWebsite(p.db, Trim(domain)) {
      var ws := out.1.db.websites;
      assert ws == p.db.websites + [ws[|ws| - 1]];
      assert ws[|ws| - 1].domain == Trim(domain);
      forall i, j | 0 <= i < j < |ws| ensures ws[i].domain != ws[j].domain {
        if j == |ws| - 1 {
          assert ws[i] == p.db.websites[i];
        }
      }
    }
  }

  lemma EnableSslKeepsDb(p: PanelState, world: World, websiteId: int, email: string)
    requires DbWellFormed(p.db)
    ensures DbWellFormed(EnableSslHandler(p, world, websiteId, email).1.db)
  {
    var ws := EnableSslHandler(p, world, websiteId, email).1.db.websites;
    if Binds(websiteId) && 1 <= websiteId <= |p.db.websites| {
      assert forall i :: 0 <= i < |ws| ==> ws[i].domain == p.db.websites[i].domain;
    }
  }

  lemma CreateMailDomainKeepsDb(p: PanelState, world: World, domain: string)
    requires DbWellFormed(p.db)
    ensures DbWellFormed(CreateMailDomainHandler(p, world, domain).1.db)
  {
    var out := CreateMailDomainHandler(p, world, domain);
    if out.0 == SeeOther("/") {
      var ds := out.1.db.mailDomains;
      var boxes := p.db.mailboxes;
      assert forall i :: 0 <= i < |p.db.mailDomains| ==> ds[i] == p.db.mailDomains[i];
      forall i | 0 <= i < |boxes|
        ensures 1 <= boxes[i].domainId <= |ds| && ds[boxes[i].domainId - 1] == AfterLast(boxes[i].email, '@')
      {
        assert ds[boxes[i].domainId - 1] == p.db.mailDomains[boxes[i].domainId - 1];
      }
    }
  }

  lemma CreateMailboxKeepsDb(p: PanelState, world: World, email: string, password: string)
    requires DbWellFormed(p.db)
    ensures DbWellFormed(CreateMailboxHandler(p, world, email, password).1.db)
  {
    var domain := AfterLast(email, '@');
    if domain in p.db.mailDomains && !HasMailbox(p.db, Trim(email)) {
      var box := Mailbox(Trim(email), world.passwordHash(password), MailDomainId(p.db, domain));
      assert CreateMailboxHandler(p, world, email, password).1.db == p.db.(mailboxes := p.db.mailboxes + [box]);
      MailboxDomainSurvivesTrim(p.db.mailDomains, email, box.domainId);
      NewAddressIsDistinct(p.db, box.email);
      AppendMailbox(p.db.mailboxes, p.db.mailDomains, box);
    }
  }

  lemma NewAddressIsDistinct(db: Db, email: string)
    requires !HasMailbox(db, email)
    ensures forall i :: 0 <= i < |db.mailboxes| ==> db.mailboxes[i].email != email
  {
  }

  /** Stripping the address does not change the domain it names, when that domain is
      a (stripped) mail domain. */
  lemma MailboxDomainSurvivesTrim(domains: seq<string>, email: string, id: int)
    requires MailDomainsWellFormed(domains)
    requires 1 <= id <= |domains| && domains[id - 1] == AfterLast(email, '@')
    ensures AfterLast(Trim(email), '@') == domains[id - 1]
  {
    assert Stripped(domains[id - 1]);
    TrimKeepsAfterLast(email, '@');
  }

  lemma AppendMailbox(boxes: seq<Mailbox>, domains: seq<string>, box: Mailbox)
    requires MailboxesWellFormed(boxes, domains)
    requires 1 <= box.domainId <= |domains| && domains[box.domainId - 1] == AfterLast(box.email, '@')
    requires forall i :: 0 <= i < |boxes| ==> boxes[i].email != box.email
    ensures MailboxesWellFormed(boxes + [box], domains)
  {
    AppendedAddressesDistinct(boxes, box);
    AppendedLinks(boxes, domains, box);
  }

  lemma AppendedAddressesDistinct(boxes: seq<Mailbox>, box: Mailbox)
    requires forall i, j :: 0 <= i < j < |boxes| ==> boxes[i].email != boxes[j].email
    requires forall i :: 0 <= i < |boxes| ==> boxes[i].email != box.email
    ensures forall i, j :: 0 <= i < j < |boxes + [box]| ==> (boxes + [box])[i].email != (boxes + [box])[j].email
  {
    var all := boxes + [box];
    forall i, j | 0 <= i < j < |all| ensures all[i].email != all[j].email {
      assert all[i] == boxes[i];
      if j < |boxes| {
        assert all[j] == boxes[j];
      }
    }
  }

  lemma AppendedLinks(boxes: seq<Mailbox>, domains: seq<string>, box: Mailbox)
    requires forall i :: 0 <= i < |boxes| ==>
      1 <= boxes[i].domainId <= |domains| && domains[boxes[i].domainId - 1] == AfterLast(boxes[i].email, '@')
    requires 1 <= box.domainId <= |domains| && domains[box.domainId - 1] == AfterLast(box.email, '@')
    ensures forall i :: 0 <= i < |boxes + [box]| ==>
      1 <= (boxes + [box])[i].domainId <= |domains|
      && domains[(boxes + [box])[i].domainId - 1] == AfterLast((boxes + [box])[i].email, '@')
  {
    var all := boxes + [box];
    forall i | 0 <= i < |all|
      ensures 1 <= all[i].domainId <= |domains| && domains[all[i].domainId - 1] == AfterLast(all[i].email, '@')
    {
      if i < |boxes| {
        assert all[i] == boxes[i];
      }
    }
  }

  /** Every privileged handler keeps the panel's tables well formed. */
  lemma HandleKeepsDb(p: PanelState, world: World, cmd: Command)
    requires DbWellFormed(p.db)
    ensures DbWellFormed(Handle(p, world, cmd).1.db)
  {
    if RequireActiveLicense(p.settings, world).None? {
      PerformKeepsDb(p, world, cmd);
    }
  }

  lemma PerformKeepsDb(p: PanelState, world: World, cmd: Command)
    requires DbWellFormed(p.db)
    ensures DbWellFormed(Perform(p, world, cmd).1.db)
  {
    match cmd
    case CreateWebsite(domain, rootPath, phpVersion) => CreateWebsiteKeepsDb(p, world, domain, rootPath, phpVersion);
    case EnableSsl(websiteId, email) => EnableSslKeepsDb(p, world, websiteId, email);
    case CreateMailDomain(domain) => CreateMailDomainKeepsDb(p, world, domain);
    case CreateMailbox(email, password) => CreateMailboxKeepsDb(p, world, email, password);
    case ReloadNginx =>
  }

  /** A new mail domain rewrites the postfix file so that, read back line by line, it
      lists every mail domain, the new one included, each exactly once, in the order
      the database lists them. */
  lemma CreateMailDomainRewritesPostfix(p: PanelState, world: World, domain: string)
    requires MailDomainsWellFormed(p.db.mailDomains)
    requires Trim(domain) !in p.db.mailDomains
    requires forall i :: 0 <= i < |p.db.mailDomains| ==> NoNewline(p.db.mailDomains[i])
    requires NoNewline(Trim(domain))
    requires multiset(world.rowOrder(p.db.mailDomains + [Trim(domain)])) == multiset(p.db.mailDomains + [Trim(domain)])
    ensures var lines := Split(CreateMailDomainHandler(p, world, domain).1.files[VirtualDomainsFile], '\n');
      && lines == world.rowOrder(p.db.mailDomains + [Trim(domain)])
      && multiset(lines) == multiset(p.db.mailDomains + [Trim(domain)])
      && (forall i, j :: 0 <= i < j < |lines| ==> lines[i] != lines[j])
  {
    var domains := p.db.mailDomains + [Trim(domain)];
    var listed := world.rowOrder(domains);
    RearrangedWithoutNewline(domains, listed);
    ListedLinesRoundTrip(listed);
    AppendedDistinct(p.db.mailDomains, Trim(domain));
    DistinctSameMultiset(listed, domains);
  }

  /** A rearrangement of domains without newlines is non-empty when they are, and has
      no newline either. */
  lemma RearrangedWithoutNewline(domains: seq<string>, listed: seq<string>)
    requires |domains| >= 1
    requires forall i :: 0 <= i < |domains| ==> NoNewline(domains[i])
    requires multiset(listed) == multiset(domains)
    ensures |listed| >= 1
    ensures forall i :: 0 <= i < |listed| ==> NoNewline(listed[i])
  {
    assert |listed| == |multiset(listed)| == |multiset(domains)| == |domains|;
    forall i | 0 <= i < |listed| ensures NoNewline(listed[i]) {
      assert listed[i] in multiset(domains);
      var j := IndexOf(domains, listed[i]);
      assert domains[j] == listed[i];
    }
  }

  /** The postfix file rendered from `listed` reads back as `listed`. */
  lemma ListedLinesRoundTrip(listed: seq<string>)
    requires |listed| >= 1
    requires forall i :: 0 <= i < |listed| ==> NoNewline(listed[i])
    ensures Split(RenderPostfixVirtualDomains(MailDomainConfigs(listed)), '\n') == listed
  {
    var configs := MailDomainConfigs(listed);
    forall i | 0 <= i < |configs| ensures NoNewline(configs[i].domain) {
      assert configs[i].domain == DomainNames(configs)[i] == listed[i];
    }
    PostfixLinesRoundTrip(configs);
  }

  /** Appending a name missing from a table without repeats keeps it without repeats. */
  lemma AppendedDistinct(names: seq<string>, d: string)
    requires forall i, j :: 0 <= i < j < |names| ==> names[i] != names[j]
    requires d !in names
    ensures forall i, j :: 0 <= i < j < |names + [d]| ==> (names + [d])[i] != (names + [d])[j]
  {
    var all := names + [d];
    forall i, j | 0 <= i < j < |all| ensures all[i] != all[j] {
      assert all[i] == names[i];
      if j < |names| {
        assert all[j] == names[j];
      }
    }
  }

  /** A rearrangement of a sequence without repeats has no repeats either. */
  lemma DistinctSameMultiset<T>(s: seq<T>, t: seq<T>)
    requires multiset(s) == multiset(t)
    requires forall i, j :: 0 <= i < j < |t| ==> t[i] != t[j]
    ensures forall i, j :: 0 <= i < j < |s| ==> s[i] != s[j]
  {
    forall i, j | 0 <= i < j < |s| ensures s[i] != s[j] {
      if s[i] == s[j] {
        TwoCopies(s, i, j);
        AtMostOneCopy(t, s[i]);
        assert false;
      }
    }
  }

  lemma TwoCopies<T>(s: seq<T>, i: nat, j: nat)
    requires i < j < |s| && s[i] == s[j]
    ensures multiset(s)[s[i]] >= 2
  {
    assert s == s[..i] + [s[i]] + s[i + 1..j] + [s[j]] + s[j + 1..];
  }

  lemma {:induction false} AtMostOneCopy<T>(t: seq<T>, x: T)
    requires forall i, j :: 0 <= i < j < |t| ==> t[i] != t[j]
    ensures multiset(t)[x] <= 1
    decreases |t|
  {
    if |t| > 0 {
      var rest := t[1..];
      assert t == [t[0]] + rest;
      assert forall i, j :: 0 <= i < j < |rest| ==> rest[i] == t[i + 1] && rest[j] == t[j + 1];
      AtMostOneCopy(rest, x);
      if x == t[0] {
        assert forall k :: 0 <= k < |rest| ==> rest[k] == t[k + 1] != t[0];
        assert x !in rest;
      }
    }
  }
}

=== FILE: sqlite.dfy ===
/** What SQLite's Python bindings accept as an integer parameter. */
module Sqlite {

  /** The range of a signed 64-bit SQLite INTEGER. */
  const MinInteger := -0x8000_0000_0000_0000
  const MaxInteger := 0x7FFF_FFFF_FFFF_FFFF

  /** Whether `sqlite3` can bind `x`; outside this range it raises `OverflowError`
      before the statement runs, so nothing is written. */
  predicate Binds(x: int) {
    MinInteger <= x <= MaxInteger
  }
}

=== FILE: text.dfy ===
/** The handful of Python string operations the panel and the license server rely on:
    `str.strip()`, `str.rstrip("/")`, `sep.join(parts)` and `s.split(sep)` (with
    `s.split(sep)[-1]` as the text after the last separator). */
module Text {

  /** The characters Python's `str.isspace()` accepts, i.e. those `str.strip()` removes. */
  predicate IsSpace(c: char) {
    || c == ' ' || c == '\t' || c == '\n' || c == '\r' || c == '\U{000B}' || c == '\U{000C}'
    || ('\U{001C}' <= c <= '\U{001F}')
    || c == '\U{0085}' || c == '\U{00A0}' || c == '\U{1680}'
    || ('\U{2000}' <= c <= '\U{200A}')
    || c == '\U{2028}' || c == '\U{2029}' || c == '\U{202F}' || c == '\U{205F}' || c == '\U{3000}'
  }

  predicate AllSpace(s: string) {
    forall i :: 0 <= i < |s| ==> IsSpace(s[i])
  }

  /** Neither end of `s` is whitespace: `str.strip()` has nothing left to remove. */
  predicate Stripped(s: string) {
    s == [] || (!IsSpace(s[0]) && !IsSpace(s[|s| - 1]))
  }

  /** `s.lstrip()`: the suffix of `s` left after dropping leading whitespace. */
  function TrimStart(s: string): (r: string)
    ensures |r| <= |s| && r == s[|s| - |r|..]
    ensures AllSpace(s[..|s| - |r|])
    ensures r == [] || !IsSpace(r[0])
    decreases |s|
  {
    if |s| > 0 && IsSpace(s[0]) then
      var r := TrimStart(s[1..]);
      DropLeadingSpace(s, r);
      r
    else
      assert s[..0] == [];
      s
  }

  /** `s.rstrip()`: the prefix of `s` left after dropping trailing whitespace. */
  function TrimEnd(s: string): (r: string)
    ensures |r| <= |s| && r == s[..|r|]
    ensures AllSpace(s[|r|..])
    ensures r == [] || !IsSpace(r[|r| - 1])
    decreases |s|
  {
    if |s| > 0 && IsSpace(s[|s| - 1]) then
      var r := TrimEnd(s[..|s| - 1]);
      DropTrailingSpace(s, r);
      r
    else
      assert s[|s|..] == [];
      s
  }

  /** A suffix of the tail after a leading space is a suffix of the whole text, and
      the space stays in front of it. */
  lemma DropLeadingSpace(s: string, r: string)
    requires |s| > 0 && IsSpace(s[0])
    requires |r| <= |s| - 1 && r == s[1..][|s| - 1 - |r|..]
    requires AllSpace(s[1..][..|s| - 1 - |r|])
    ensures r == s[|s| - |r|..]
    ensures AllSpace(s[..|s| - |r|])
  {
    assert s[1..][|s| - 1 - |r|..] == s[|s| - |r|..];
    assert s[..|s| - |r|] == [s[0]] + s[1..][..|s| - 1 - |r|];
  }

  /** A prefix of the text before a trailing space is a prefix of the whole text, and
      the space stays after it. */
  lemma DropTrailingSpace(s: string, r: string)
    requires |s| > 0 && IsSpace(s[|s| - 1])
    requires |r| <= |s| - 1 && r == s[..|s| - 1][..|r|]
    requires AllSpace(s[..|s| - 1][|r|..])
    ensures r == s[..|r|]
    ensures AllSpace(s[|r|..])
  {
    assert s[..|s| - 1][..|r|] == s[..|r|];
    assert s[|r|..] == s[..|s| - 1][|r|..] + [s[|s| - 1]];
  }

  /** A text is its prefix followed by the suffix `r`. */
  lemma SuffixSplit(s: string, r: string)
    requires |r| <= |s| && r == s[|s| - |r|..]
    ensures s == s[..|s| - |r|] + r
  {
  }

  /** A text is the prefix `r` followed by its remainder. */
  lemma PrefixSplit(s: string, r: string)
    requires |r| <= |s| && r == s[..|r|]
    ensures s == r + s[|r|..]
  {
  }

  /** `s.strip()`. Lemma `TrimOfPadded` shows it is exactly "cut the whitespace off both ends". */
  function Trim(s: string): (r: string)
    ensures |r| <= |s|
    ensures Stripped(r)
    decreases |s|
  {
    if |s| > 0 && IsSpace(s[0]) then Trim(s[1..])
    else
      var r := TrimEnd(s);
      assert r != [] ==> r[0] == s[0];
      r
  }

  /** Stripping both ends is stripping the front, then the back. */
  lemma {:induction false} TrimIsBothEnds(s: string)
    ensures Trim(s) == TrimEnd(TrimStart(s))
    decreases |s|
  {
    if |s| > 0 && IsSpace(s[0]) {
      TrimIsBothEnds(s[1..]);
    }
  }

  lemma {:induction false} TrimStartSkipsSpace(a: string, t: string)
    requires AllSpace(a)
    ensures TrimStart(a + t) == TrimStart(t)
    decreases |a|
  {
    if |a| == 0 {
      assert a + t == t;
    } else {
      assert (a + t)[1..] == a[1..] + t;
      TrimStartSkipsSpace(a[1..], t);
    }
  }

  lemma {:induction false} TrimEndSkipsSpace(t: string, b: string)
    requires AllSpace(b)
    ensures TrimEnd(t + b) == TrimEnd(t)
    decreases |b|
  {
    if |b| == 0 {
      assert t + b == t;
    } else {
      var b' := b[..|b| - 1];
      assert (t + b)[..|t + b| - 1] == t + b';
      TrimEndSkipsSpace(t, b');
    }
  }

  /** Stripping removes whitespace from the two ends and nothing else: whatever
      whitespace surrounds a text with non-space ends, `Trim` gives back that text. */
  lemma TrimOfPadded(a: string, m: string, b: string)
    requires AllSpace(a) && AllSpace(b)
    requires Stripped(m)
    ensures Trim(a + m + b) == m
  {
    TrimIsBothEnds(a + m + b);
    EndsOfPadded(a, m, b);
  }

  lemma EndsOfPadded(a: string, m: string, b: string)
    requires AllSpace(a) && AllSpace(b)
    requires Stripped(m)
    ensures TrimEnd(TrimStart(a + m + b)) == m
  {
    var t := m + b;
    StartOfPadded(a, m, b, t);
    if m == [] {
      EndsOfSpace(b, t);
    } else {
      EndsOfPaddedText(m, b);
    }
  }

  lemma StartOfPadded(a: string, m: string, b: string, t: string)
    requires AllSpace(a) && t == m + b
    ensures TrimStart(a + m + b) == TrimStart(t)
  {
    Associate(a, m, b);
    TrimStartSkipsSpace(a, t);
  }

  lemma Associate(a: string, m: string, b: string)
    ensures a + m + b == a + (m + b)
  {
  }

  lemma EndsOfSpace(b: string, t: string)
    requires AllSpace(b) && t == [] + b
    ensures TrimEnd(TrimStart(t)) == []
  {
    assert t == b;
    TrimStartOfSpace(b);
  }

  lemma EndsOfPaddedText(m: string, b: string)
    requires AllSpace(b)
    requires m != [] && Stripped(m)
    ensures TrimEnd(TrimStart(m + b)) == m
  {
    TrimStartKeeps(m + b);
    TrimEndSkipsSpace(m, b);
    TrimEndKeeps(m);
  }

  /** A text that starts with a non-space is its own `lstrip()`. */
  lemma TrimStartKeeps(s: string)
    requires s != [] && !IsSpace(s[0])
    ensures TrimStart(s) == s
  {
  }

  /** A text that ends with a non-space is its own `rstrip()`. */
  lemma TrimEndKeeps(s: string)
    requires s != [] && !IsSpace(s[|s| - 1])
    ensures TrimEnd(s) == s
  {
  }

  lemma TrimStartOfSpace(b: string)
    requires AllSpace(b)
    ensures TrimStart(b) == []
  {
  }

  /** Stripping twice is stripping once. */
  lemma TrimIdempotent(s: string)
    ensures Trim(Trim(s)) == Trim(s)
  {
    var m := Trim(s);
    assert [] + m + [] == m;
    TrimOfPadded([], m, []);
  }

  /** `s.rstrip(c)` for a single character `c`: the prefix left after dropping every trailing `c`. */
  function TrimTrailing(s: string, c: char): (r: string)
    ensures |r| <= |s| && r == s[..|r|]
    ensures forall i :: |r| <= i < |s| ==> s[i] == c
    ensures r == [] || r[|r| - 1] != c
    decreases |s|
  {
    if |s| > 0 && s[|s| - 1] == c then TrimTrailing(s[..|s| - 1], c) else s
  }

  function Repeat(c: char, n: nat): (r: string)
    ensures |r| == n
    ensures forall i :: 0 <= i < n ==> r[i] == c
  {
    seq(n, _ => c)
  }

  /** Appending any number of `c` does not change what `rstrip(c)` returns. */
  lemma {:induction false} TrimTrailingIgnoresExtra(s: string, c: char, n: nat)
    ensures TrimTrailing(s + Repeat(c, n), c) == TrimTrailing(s, c)
  {
    if n == 0 {
      assert s + Repeat(c, 0) == s;
    } else {
      var x := s + Repeat(c, n - 1);
      assert s + Repeat(c, n) == x + [c];
      assert (x + [c])[..|x + [c]| - 1] == x;
      TrimTrailingIgnoresExtra(s, c, n - 1);
    }
  }

  /** `sep.join(parts)`: no parts give the empty text; n >= 1 parts give the parts
      with one copy of `sep` between each two, so n - 1 copies in all. */
  function Join(sep: string, parts: seq<string>): (r: string)
    ensures |parts| == 0 ==> r == ""
    ensures |parts| >= 1 ==> |r| == TotalLength(parts) + (|parts| - 1) * |sep|
    decreases |parts|
  {
    if |parts| == 0 then ""
    else if |parts| == 1 then parts[0]
    else parts[0] + sep + Join(sep, parts[1..])
  }

  /** Joining a part in front of at least one more puts one separator between. */
  lemma JoinCons(sep: string, x: string, rest: seq<string>)
    requires |rest| >= 1
    ensures Join(sep, [x] + rest) == x + sep + Join(sep, rest)
  {
    assert ([x] + rest)[1..] == rest;
  }

  /** The sum of the lengths of `parts`. */
  function TotalLength(parts: seq<string>): nat
    decreases |parts|
  {
    if |parts| == 0 then 0 else |parts[0]| + TotalLength(parts[1..])
  }

  /** The position of the first `c` in `s`. */
  function IndexOf<T(==)>(s: seq<T>, c: T): (i: nat)
    requires c in s
    ensures i < |s| && s[i] == c
    ensures c !in s[..i]
    decreases |s|
  {
    if s[0] == c then 0
    else
      assert c in s[1..] by { var k :| 0 <= k < |s| && s[k] == c; assert s[1..][k - 1] == c; }
      var j := IndexOf(s[1..], c);
      assert s[..j + 1] == [s[0]] + s[1..][..j];
      j + 1
  }

  /** `s.split(c)`: the pieces of `s` between occurrences of `c`, empty pieces included. */
  function Split(s: string, c: char): (r: seq<string>)
    ensures |r| >= 1
    ensures forall k :: 0 <= k < |r| ==> c !in r[k]
    decreases |s|
  {
    if c !in s then [s]
    else
      var i := IndexOf(s, c);
      [s[..i]] + Split(s[i + 1..], c)
  }

  /** Joining the pieces of a split with the same separator restores the text. */
  lemma {:induction false} JoinSplit(s: string, c: char)
    ensures Join([c], Split(s, c)) == s
    decreases |s|
  {
    if c in s {
      var i, t := SplitFirst(s, c);
      JoinSplit(t, c);
      JoinCons([c], s[..i], Split(t, c));
      CutAt(s, i);
    }
  }

  /** Splitting a join of at least one separator-free part gives back the parts, in order. */
  lemma {:induction false} SplitJoin(parts: seq<string>, c: char)
    requires |parts| >= 1
    requires forall k :: 0 <= k < |parts| ==> c !in parts[k]
    ensures Split(Join([c], parts), c) == parts
    decreases |parts|
  {
    if |parts| > 1 {
      assert parts == [parts[0]] + parts[1..];
      JoinCons([c], parts[0], parts[1..]);
      SplitAtFirst(parts[0], c, Join([c], parts[1..]));
      SplitJoin(parts[1..], c);
    }
  }

  /** A split cuts first at the `c` that ends a `c`-free prefix. */
  lemma SplitAtFirst(p: string, c: char, tail: string)
    requires c !in p
    ensures Split(p + [c] + tail, c) == [p] + Split(tail, c)
  {
    var s := p + [c] + tail;
    assert s[|p|] == c;
    assert s[..|p|] == p;
    var i := IndexOf(s, c);
    assert i == |p|;
    assert s[i + 1..] == tail;
  }

  /** `r` is the last `|r|` characters of `s`. */
  predicate IsSuffix(r: string, s: string) {
    |r| <= |s| && forall j :: 0 <= j < |r| ==> r[j] == s[|s| - |r| + j]
  }

  /** The last piece of a split is a suffix of `s` free of `c`; it is all of `s` when
      `s` holds no `c`, and otherwise a `c` stands right before it. */
  lemma {:induction false} SplitLast(s: string, c: char, r: string)
    requires r == Split(s, c)[|Split(s, c)| - 1]
    ensures IsSuffix(r, s)
    ensures c !in s ==> r == s
    ensures c in s ==> |r| < |s| && s[|s| - |r| - 1] == c
    decreases |s|, 1
  {
    if c in s {
      SplitLastPresent(s, c, r);
    } else {
      assert Split(s, c) == [s];
    }
  }

  lemma {:induction false} SplitLastPresent(s: string, c: char, r: string)
    requires c in s
    requires r == Split(s, c)[|Split(s, c)| - 1]
    ensures IsSuffix(r, s) && |r| < |s| && s[|s| - |r| - 1] == c
    decreases |s|, 0
  {
    var i, t := SplitFirst(s, c);
    SplitLast(t, c, r);
    SuffixOfTail(s, c, i, t, r);
  }

  /** A text holding `c` splits into the piece before its first `c` and the split of the rest. */
  lemma SplitFirst(s: string, c: char) returns (i: nat, t: string)
    requires c in s
    ensures i < |s| && s[i] == c && t == s[i + 1..]
    ensures Split(s, c) == [s[..i]] + Split(t, c)
    ensures Split(s, c)[|Split(s, c)| - 1] == Split(t, c)[|Split(t, c)| - 1]
  {
    i := IndexOf(s, c);
    t := s[i + 1..];
    var r := Split(t, c);
    assert Split(s, c) == [s[..i]] + r;
    LastOfCons(s[..i], r);
  }

  lemma LastOfCons<T>(x: T, r: seq<T>)
    requires |r| >= 1
    ensures ([x] + r)[|[x] + r| - 1] == r[|r| - 1]
  {
  }

  /** A text is what comes before position `i`, the character there, and what follows. */
  lemma CutAt(s: string, i: nat)
    requires i < |s|
    ensures s == s[..i] + [s[i]] + s[i + 1..]
  {
  }

  /** What is said of a suffix of the text after a `c` at `i` carries over to the
      whole text. */
  lemma SuffixOfTail(s: string, c: char, i: nat, t: string, r: string)
    requires i < |s| && s[i] == c && t == s[i + 1..]
    requires IsSuffix(r, t)
    requires c !in t ==> r == t
    requires c in t ==> |r| < |t| && t[|t| - |r| - 1] == c
    ensures IsSuffix(r, s) && |r| < |s| && s[|s| - |r| - 1] == c
  {
    forall j | 0 <= j < |r| ensures r[j] == s[|s| - |r| + j] {
      assert r[j] == t[|t| - |r| + j];
    }
    if c in t {
      assert s[|s| - |r| - 1] == t[|t| - |r| - 1];
    }
  }

  /** `s.split(c)[-1]`: the text after the last `c`, or all of `s` when it holds no `c`. */
  function AfterLast(s: string, c: char): (r: string)
    ensures c !in r
    ensures IsSuffix(r, s)
    ensures c !in s ==> r == s
    ensures c in s ==> |r| < |s| && s[|s| - |r| - 1] == c
  {
    var ps := Split(s, c);
    SplitLast(s, c, ps[|ps| - 1]);
    ps[|ps| - 1]
  }

  /** Whatever precedes the last `c` does not matter: after `x + [c] + r` with no `c`
      in `r`, the text after the last `c` is `r`. */
  lemma AfterLastOfSuffix(x: string, c: char, r: string)
    requires c !in r
    ensures AfterLast(x + [c] + r, c) == r
  {
    var m := x + [c] + r;
    assert m[|x|] == c;
    var r' := AfterLast(m, c);
    if |r'| > |r| {
      CharOfSuffix(r', m, |r'| - |r| - 1);
      assert false;
    }
    if |r'| < |r| {
      assert false;
    }
    assert r' == m[|m| - |r|..];
  }

  lemma CharOfSuffix(r: string, s: string, j: nat)
    requires IsSuffix(r, s) && j < |r|
    ensures r[j] == s[|s| - |r| + j]
  {
  }

  /** Stripping a text does not change what follows its last `c` (a non-space
      character) when that part is itself already stripped. */
  lemma TrimKeepsAfterLast(s: string, c: char)
    requires !IsSpace(c)
    requires Stripped(AfterLast(s, c))
    ensures AfterLast(Trim(s), c) == AfterLast(s, c)
  {
    var r := AfterLast(s, c);
    if c !in s {
      assert [] + s + [] == s;
      TrimOfPadded([], s, []);
    } else {
      var a, h := SplitAtLast(s, c);
      TrimBeforeLast(s, a, h, c, r);
    }
  }

  /** The stripped text keeps the last `c` and everything after it. */
  lemma TrimBeforeLast(s: string, a: string, h: string, c: char, r: string)
    requires s == a + (h + [c] + r) + []
    requires AllSpace(a) && (h == [] || !IsSpace(h[0]))
    requires !IsSpace(c) && Stripped(r) && c !in r
    ensures AfterLast(Trim(s), c) == r
  {
    SeparatorKeepsStripped(h, c, r);
    TrimOfPadded(a, h + [c] + r, []);
    AfterLastOfSuffix(h, c, r);
  }

  /** A text holding `c` is leading whitespace `a`, then `h` (empty or starting with
      a non-space), then the last `c` and what follows it. */
  lemma SplitAtLast(s: string, c: char) returns (a: string, h: string)
    requires c in s
    ensures s == a + (h + [c] + AfterLast(s, c)) + []
    ensures AllSpace(a) && (h == [] || !IsSpace(h[0]))
  {
    var pre := AfterLastSplits(s, c);
    a, h := LeadingSpace(pre);
    Regroup(a, h, c, AfterLast(s, c));
  }

  /** A text is its leading whitespace followed by the rest. */
  lemma LeadingSpace(s: string) returns (a: string, h: string)
    ensures s == a + h && AllSpace(a) && h == TrimStart(s)
    ensures h == [] || !IsSpace(h[0])
  {
    h := TrimStart(s);
    a := s[..|s| - |h|];
    SuffixSplit(s, h);
  }

  /** A text holding `c` is what precedes its last `c`, that `c`, and what follows. */
  lemma AfterLastSplits(s: string, c: char) returns (pre: string)
    requires c in s
    ensures s == pre + [c] + AfterLast(s, c)
  {
    var r := AfterLast(s, c);
    var k := |s| - |r| - 1;
    pre := s[..k];
    forall i | 0 <= i < |s| ensures s[i] == (pre + [c] + r)[i] {
      if i > k {
        CharOfSuffix(r, s, i - k - 1);
      }
    }
  }

  lemma Regroup(a: string, h: string, c: char, r: string)
    ensures (a + h) + [c] + r == a + (h + [c] + r) + []
  {
  }

  lemma SeparatorKeepsStripped(h: string, c: char, r: string)
    requires !IsSpace(c)
    requires h == [] || !IsSpace(h[0])
    requires Stripped(r)
    ensures Stripped(h + [c] + r)
  {
    var m := h + [c] + r;
    assert m[0] == (if |h| > 0 then h[0] else c);
    assert m[|m| - 1] == (if |r| > 0 then r[|r| - 1] else c);
  }
}

=== FILE: wrappers.dfy ===
/** The optional-value datatype shared by the panel and the client models. */
module Wrappers {

  /** `None` stands for Python's `None` (a missing row, a missing JSON field). */
  datatype Option<+T> = None | Some(value: T) {

    /** The value if present, otherwise `default`. */
    function GetOr(default: T): T {
      match this
      case Some(v) => v
      case None => default
    }
  }
}
